=== FILE: README.md ===
# A model of the `vcs` Git adapter in Dafny

This project models the Git client of the `vcs` library, the class
`Webcreate\Vcs\Git`, and proves properties of that model. The client drives
a `git` executable on behalf of its caller. It keeps a small lifecycle
state: whether a clone exists, whether a checkout is active, and whether
the repository has been fetched. It also caches the remote branch and tag
lists. Every operation either guards on that state or first brings it
about by a checkout or a fetch. It then builds an ordered argument array
for one `git` sub-command and reads the command's output.

The model is split into six modules:

- `Outcomes`: `Option` and `Result`. They stand for PHP's `null` and for
  raised exceptions.
- `Php`: the PHP built-ins the client relies on, restated over strings.
  These are `trim`/`rtrim`, `explode`/`implode`, `basename`, truthiness,
  the string cast of integers, and the loose `==` on numeric strings.
- `Refs`: references and the `git ls-remote` listing they are parsed from.
- `Args`: the argument arrays each operation builds and the tokens they
  become. A flag set to `true` becomes a bare flag. A flag or positional
  set to `false` or `null` is dropped. A flag ending in `=` is joined to its
  value.
- `Git`: the client state and every operation of the class.
- `Sessions`: runs of calls on one client, and what holds across a run.

The client is a value, not an object. Each operation takes the client and
returns a `Step`: the client after the call, plus what the call returned or
raised. The `git` executable is an oracle, `Executor`, which answers the
n-th command the client issues. Each issued command is appended, with its
answer, to the client's trace `issued`. This makes the following
statements provable:

- "no command is issued when a guard fails";
- "a cache hit issues nothing";
- "at most one `fetch` completes per client".

## Model

| member | source | states |
|---|---|---|
| Php.Trim | src/Webcreate/Vcs/Git.php:327 | trimming leaves nothing exactly when the text is white space only, so blank listings are recognised in both directions |
| Php.RTrim | src/Webcreate/Vcs/Git.php:331 | the result is the longest prefix of the input that does not end in white space; everything removed is white space |
| Php.Explode | src/Webcreate/Vcs/Git.php:331-335 | the pieces are never empty as a list and contain no delimiter; gluing them back gives the input; the first piece is the text before the first delimiter |
| Php.ExplodeImplode | src/Webcreate/Vcs/Git.php:331-335 | splitting undoes gluing when no part contains the delimiter |
| Php.ExplodeLast | src/Webcreate/Vcs/Git.php:335-336 | the last piece of `a<d>b`, for a delimiter-free `b`, is `b`, whatever `a` holds |
| Php.Basename | src/Webcreate/Vcs/Git.php:336 | the basename contains no slash |
| Php.BasenameIsLastPiece | src/Webcreate/Vcs/Git.php:336 | for a path that does not end in a slash, the basename is the last `/`-piece |
| Php.BasenameOfChild | src/Webcreate/Vcs/Git.php:336 | the basename of `dir/name` is `name`, for a non-empty `name` without a slash |
| Php.DigitsRoundTrip | tests/Webcreate/Vcs/GitTest.php:110-115 | the decimal numeral of a number reads back as that number, so the `-n` limit reaches `git` unchanged |
| Php.IntToString | src/Webcreate/Vcs/Git.php:251 | the string cast of an integer is a numeral (with a leading minus for negatives) denoting that integer |
| Php.LooseEqualsConflatesNumerals | src/Webcreate/Vcs/Git.php:447 | PHP's loose `==` calls the distinct strings `01234` and `1234` equal |
| Php.LooseEquals | src/Webcreate/Vcs/Git.php:447 | two strings are loosely equal exactly when they are equal, or both are numerals of the same value, at most `PHP_INT_MAX` |
| Refs.ParseLine | src/Webcreate/Vcs/Git.php:335-336 | the hash is the text before the first tab; the name is slash-free; a line without a tab gives an empty name and the whole line as hash |
| Refs.ParseLineKeepsLastSegment | src/Webcreate/Vcs/Git.php:335-336 | the name read from `HASH<TAB>dir/x` is only `x`, the last `/`-segment, and the hash is `HASH`: the branch `feature/x` reads as `x` |
| Refs.RefPathBasename | src/Webcreate/Vcs/Git.php:336 | the basename of the full reference path of a branch, tag or head is its short name, for a non-empty name without a slash |
| Refs.RefPathNoTab | src/Webcreate/Vcs/Git.php:335 | the full reference path contains no tab when the name has none, so the tab split of a printed line cuts between hash and path |
| Refs.ParseListing | src/Webcreate/Vcs/Git.php:327-339 | no references exactly when the output is blank; otherwise one reference per line of the right-trimmed output, in line order, each of the requested kind |
| Refs.ParseRenderLine | src/Webcreate/Vcs/Git.php:335-336 | reading the line Git prints for a well-formed reference gives that reference back |
| Refs.ListingRoundTrip | src/Webcreate/Vcs/Git.php:327-339 | parsing the listing Git prints for well-formed references of one kind gives exactly those references, in order |
| Args.Tokens | src/Webcreate/Vcs/Git.php:249-254 | null and false entries contribute nothing; a flag set to true is the bare flag; a flag with a number or text is followed by it, or joined to it when the flag ends in `=`; any other positional contributes its text |
| Args.RenderAppend | src/Webcreate/Vcs/Git.php:249-254 | the tokens of an array follow the order of its entries |
| Args.DropNulls | src/Webcreate/Vcs/Git.php:311-313 | no null survives; every kept entry was in the array; an array without nulls is unchanged; the tokens are the same as before filtering |
| Args.LogPath | src/Webcreate/Vcs/Git.php:245-247 | the path passed to `log` is never empty; a non-empty path is kept |
| Args.DiffTokens | src/Webcreate/Vcs/Git.php:302-315 | `--name-status` leads exactly when a summary is asked for; then the non-null old revision, new revision, old path and new path follow, in that order |
| Args.LogTokens | src/Webcreate/Vcs/Git.php:245-255 | `-n` leads exactly when the limit is truthy; the last two tokens are always the pretty format and then the path; an empty path is passed as `.` and any other path as it is |
| Args.LogCommandLines | tests/Webcreate/Vcs/GitTest.php:110-120 | the two expected `log` command lines, with limit 10 and with no limit, token by token |
| Args.CloneCommandLine | tests/Webcreate/Vcs/GitTest.php:37 | the expected `clone -b master <url> <dest>` command line, token by token |
| Args.StatusTokens | src/Webcreate/Vcs/Git.php:136-141 | `--porcelain`, then the path only when one is given |
| Args.FetchTokens | src/Webcreate/Vcs/Git.php:428-431 | the remote is the only token, and only when it is not null |
| Args.ChildLogPath | src/Webcreate/Vcs/Git.php:223 | corrected: the child's path starts with the listed directory |
| Args.ChildLogPathAsWritten | src/Webcreate/Vcs/Git.php:223 | the as-written child path agrees with the corrected one exactly when the directory is not `0` |
| Args.ChildLogPathNamesChild | src/Webcreate/Vcs/Git.php:223 | a non-root directory and a slash lead the path, and the path's basename is the child |
| Args.ChildLogPathAsWrittenDropsZero | src/Webcreate/Vcs/Git.php:223 | as written, the child `a.txt` of directory `0` is logged as `a.txt`, not `0/a.txt` |
| Git.NewClient | src/Webcreate/Vcs/Git.php:36-44 | a new client has no clone, no checkout, is not fetched, has empty caches and has issued nothing |
| Git.Execute | src/Webcreate/Vcs/Git.php:433 | one command is appended to the trace with its answer; the fetch counts grow by one exactly for a `fetch` |
| Git.Add | src/Webcreate/Vcs/Git.php:102-109 | without a checkout it raises and issues nothing; otherwise it issues one `add <path>` and returns its output |
| Git.Commit | src/Webcreate/Vcs/Git.php:116-123 | without a checkout it raises and issues nothing; otherwise it issues one `commit -m <message>` |
| Git.Status | src/Webcreate/Vcs/Git.php:130-142 | without a checkout it raises and issues nothing; otherwise it issues one `status` |
| Git.Push | src/Webcreate/Vcs/Git.php:379-393 | without a checkout it raises and issues nothing; otherwise it issues one `push` and never raises: a failed push yields null |
| Git.Pull | src/Webcreate/Vcs/Git.php:402-409 | without a checkout it raises and issues nothing; otherwise it issues one `pull <remote>` |
| Git.CloneRepository | src/Webcreate/Vcs/Git.php:46-62 | one `clone` of the working branch into the destination (the working directory when none is given); on success the destination becomes the working directory and the client counts as fetched |
| Git.Materialize | src/Webcreate/Vcs/Git.php:84-88 | a clone when there is none yet or a destination is given, otherwise one `checkout <head>`; a failure raises with nothing else changed |
| Git.Checkout | src/Webcreate/Vcs/Git.php:69-95 | the clone or branch switch comes first; if it completes, exactly one `pull origin` follows, the checkout is active and the call succeeds exactly when the pull completed |
| Git.EnsureCheckout | src/Webcreate/Vcs/Git.php:150-152 | an active checkout is left alone; otherwise the client checks out; success means a checkout is active |
| Git.Fetch | src/Webcreate/Vcs/Git.php:418-438 | once fetched, returns false and changes nothing; otherwise checks out when there is no clone, issues one `fetch`, and on success returns true with the client fetched and exactly one more completed `fetch`; at most one fetch completes |
| Git.AfterFetch | src/Webcreate/Vcs/Git.php:243 | on a fetched client only the command is issued; a success leaves the client fetched, with that command completed last; on a client not yet fetched, a success means exactly one `fetch` completed before it |
| Git.Log | src/Webcreate/Vcs/Git.php:241-256 | on a fetched client issues only one `log`; on success the `log` is the last command and its output is the result; on a client not yet fetched, a success means exactly one `fetch` completed before it |
| Git.Changelog | src/Webcreate/Vcs/Git.php:261-270 | on a fetched client issues only one `log` over `r1^1..r2`; on success it is the last command and its output is the result; on a client not yet fetched, a success means exactly one `fetch` completed before it |
| Git.Diff | src/Webcreate/Vcs/Git.php:297-316 | on a fetched client issues only one `diff` with the filtered arguments; on success it is the last command and its output is the result; on a client not yet fetched, a success means exactly one `fetch` completed before it |
| Git.CompareRevisions | src/Webcreate/Vcs/Git.php:443-458 | the result is -1, 0 or 1; it is 0 exactly for revisions counted as the same, and then no `log` runs; otherwise a success ends with the completed `log r1..r2`, and the result is 1 exactly when its output is empty; on a client not yet fetched, a success means exactly one `fetch` completed before it |
| Git.RangeLog | src/Webcreate/Vcs/Git.php:450-456 | one `log --pretty=oneline r1..r2`; the result is 1 exactly when its output is empty and -1 otherwise; a failed `log` raises |
| Git.RevisionCompare | src/Webcreate/Vcs/Git.php:443-458 | compares revisions as strings: 0 exactly for equal revisions; otherwise a success ends with the completed `log --pretty=oneline r1..r2`, with 1 for empty output and -1 otherwise; on a client not yet fetched, a success means exactly one `fetch` completed before it |
| Git.RevisionCompareAsWritten | src/Webcreate/Vcs/Git.php:443-458 | as written, the result is -1, 0 or 1, and 0 exactly when the revisions are loosely equal; on a fetched client with loosely unequal revisions exactly one `log r1..r2` is issued, and a success gives 1 for empty output and -1 otherwise; on a client not yet fetched, a success means exactly one `fetch` completed before it |
| Git.RevisionCompareAsWrittenConflates | src/Webcreate/Vcs/Git.php:447 | as written, `01234` and `1234` compare as 0 without any `log`; the string comparison runs the `log` |
| Git.ListRemote | src/Webcreate/Vcs/Git.php:322-343 | a filled cache is returned and nothing is issued; otherwise one `ls-remote` runs, and its parsed listing is cached and returned |
| Git.Branches | src/Webcreate/Vcs/Git.php:322-343 | a cached listing is returned and nothing is issued; otherwise one `ls-remote --heads`, and a failure caches nothing; a fresh listing is the parsed output, all of kind branch, and becomes the cache |
| Git.Tags | src/Webcreate/Vcs/Git.php:349-370 | a cached listing is returned and nothing is issued; otherwise one `ls-remote --tags`, and a failure caches nothing; a fresh listing is the parsed output, all of kind tag, and becomes the cache |
| Git.ListEntries | src/Webcreate/Vcs/Git.php:222-231 | one entry per child, in order, with the child's name, the working branch and the child's kind |
| Git.ListEntriesLogsEachChild | src/Webcreate/Vcs/Git.php:222-226 | on a fetched client, a successful listing issues exactly one `log -n 1` per child, in order, about the child's path as Git.php:223 forms it, and each entry's commit is the output of that `log` |
| Git.Ls | src/Webcreate/Vcs/Git.php:203-234 | checks out first when needed; a missing directory raises (NotFound when the checkout was already active); success lists every child by name, branch and kind |
| Git.Cat | src/Webcreate/Vcs/Git.php:276-287 | checks out first when needed; the result is the file's contents, and a missing file raises |
| Git.StageAndCommit | src/Webcreate/Vcs/Git.php:157-158 | one `add *`; then one `commit -m <message>` only if the add completed |
| Git.Import | src/Webcreate/Vcs/Git.php:148-159 | checks out first when needed; a success ends with `add *` and then `commit -m <message>` |
| Git.CloneAndUpdate | src/Webcreate/Vcs/Git.php:187-189 | one shallow `clone` of the working copy; only if it completes, one `submodule update --init --recursive`; success means both completed and are the last two commands |
| Git.Export | src/Webcreate/Vcs/Git.php:168-197 | checks out first when needed; a success ends with the shallow `clone -b <head> --depth=1 file://<cwd> <dest>` of the working copy and then `submodule update` |
| Sessions.Apply | src/Webcreate/Vcs/Git.php:43-44 | each call as the class performs it (`revisionCompare` with the loose `==`, `ls` with the path of Git.php:223): no call moves the state backwards or completes more than one fetch; a completed fetch leaves the client fetched; a fetched client issues no fetch |
| Sessions.Run | src/Webcreate/Vcs/Git.php:43-44 | over any sequence of calls the state only moves forward and at most one fetch completes, none if the client was already fetched |
| Sessions.Session | src/Webcreate/Vcs/Git.php:43-44 | from creation on, whatever is called and however `git` answers, at most one `fetch` completes |
| Sessions.FetchedPrefixQuiet | src/Webcreate/Vcs/Git.php:420-422 | however a session is split, once its first part has completed a `fetch` its second part completes none |
| Sessions.FetchTwice | src/Webcreate/Vcs/Git.php:420-422 | after a successful fetch, fetching again returns false and issues nothing |
| Sessions.CloneThenFetch | src/Webcreate/Vcs/Git.php:60-61 | after a completed clone and any calls after it, a fetch returns false and issues nothing |
| Sessions.FetchRetriedAfterFailure | src/Webcreate/Vcs/Git.php:433-435 | a failed fetch leaves the client unfetched, so the next fetch runs `fetch` again |
| Sessions.LogAfterFetch | src/Webcreate/Vcs/Git.php:243 | once fetched, and after any calls, `log` issues exactly its own command |
| Sessions.FreshClientGuards | src/Webcreate/Vcs/Git.php:104-106 | on a fresh client, add, commit, status, push and pull raise and issue nothing |
| Sessions.BranchesCached | src/Webcreate/Vcs/Git.php:324 | after a successful listing and any calls after it, `branches()` returns the identical sequence and issues nothing |
| Sessions.TagsCached | src/Webcreate/Vcs/Git.php:351 | after a successful listing and any calls after it, `tags()` returns the identical sequence and issues nothing |
| Sessions.BranchesRetriedAfterFailure | src/Webcreate/Vcs/Git.php:324-339 | a failed `branches()` leaves the cache empty, so the next call issues `ls-remote --heads` again |
| Sessions.TagsRetriedAfterFailure | src/Webcreate/Vcs/Git.php:351-366 | a failed `tags()` leaves the cache empty, so the next call issues `ls-remote --tags` again |
| Sessions.BranchesListed | src/Webcreate/Vcs/Git.php:325-339 | a fresh client's `branches()` returns exactly the branches the remote lists, in order |
| Sessions.CompareSame | src/Webcreate/Vcs/Git.php:447-448 | a revision compared with itself gives 0 under the loose `==`, and the client ends as after the fetch alone |
| Sessions.CheckoutFresh | tests/Webcreate/Vcs/GitTest.php:37 | a fresh checkout into a destination first issues `clone -b master <url> <dest>`; if that completes, it then issues `pull origin`, and the destination becomes the fetched working directory |
| Sessions.LsFresh | tests/Webcreate/Vcs/GitTest.php:80-87 | `ls('/dir1')` on a fresh client clones into the working directory first; on success it lists `sample1.php` as a file on `master` |
| Sessions.LsZeroDir | src/Webcreate/Vcs/Git.php:222-223 | on a checked-out, fetched client, `ls('0')` with the child `a.txt` issues exactly one command, `log -n 1` about `a.txt` rather than `0/a.txt` |
| Sessions.LsRoot | src/Webcreate/Vcs/Git.php:209-223 | on a checked-out, fetched client, `ls('/')` with the child `a.txt` lists the top of the working copy: it issues exactly one command, `log -n 1` about `a.txt` |
| Sessions.ImportFresh | tests/Webcreate/Vcs/GitTest.php:147-170 | import on a fresh client clones first; on success it ends with `add *` and then `commit` |

## Left out

- Shell quoting: the command adapter's quoting and escaping are not modelled. A command is its sub-command plus the argument array, and `Args.Render` gives the tokens before quoting.
- Log parsing: the `<logentry>` parser is not part of this model. `log`, `changelog`, `diff` and `status` return the executor's raw output.
- Git.Ls: each entry's `commit` is the raw one-entry `log` output for the child, not the first parsed commit.
- Base class: the base class that runs commands and holds the working directory, head and `hasClone` bookkeeping is not part of this model.
  - A completed clone sets `hasClone`. This is an assumption.
  - In the model `setCwd` only sets the working directory. The base class's reset of `isTemporary` (Git.php:57) is left out. The model also assumes `setCwd` leaves `hasClone` and `hasCheckout` unchanged; a reset of those on re-cloning elsewhere would happen in the base class, which is not part of this model. The reference caches and `isFetched` belong to the Git class itself, so `setCwd` cannot reset them.
  - `getHead()` is a fixed branch name.
  - The `isTemporary` bookkeeping is left out because it has no effect on what is issued.
- The working directory each command runs in is not recorded. This includes `getcwd()` for the export clone and the destination for `submodule update`.
- Event dispatch: `PRE_CHECKOUT`, `POST_CHECKOUT`, `PRE_EXPORT` and `POST_EXPORT` have no effect on the client's state and are left out.
- The file system is not modelled. It becomes parameters instead:
  - `ls` takes whether the directory exists and its children in enumeration order. The exclusion of `.git` and dot-file handling belong to that enumeration.
  - `cat` takes the file's contents, or their absence.
  - The mirror in `import` and the removal of `dest/.git` in `export` are left out, so `import` takes no source or target path.
- Git.Log: the revision parameter is unused by the code, so it is not a parameter of the model.
- Git.Push: every failure of `push` is swallowed into a null result. Which diagnostics are "noise" is up to the executor.
- Php.LooseEquals: covers only strings of decimal digits. Signs, decimal points, exponents and leading white space in PHP numeric strings are not modelled, because revisions of those shapes are not needed to exhibit the finding. Numerals above `PHP_INT_MAX` are compared as text, which is what PHP's float-then-text comparison comes to for decimal numerals.
- Php.Basename: uses `/` as the only separator. The Windows backslash separator is left out.
- Args.Tokens: renders a positional `true` as `1`, the PHP string cast. No array of the client passes one, so this is an assumption.
- Git.Branches: the guarantee that every returned reference is of kind branch is stated only for a fresh listing. A cached sequence is returned as it was stored, and the model's client type does not constrain it. `Sessions.BranchesCached` shows it is the sequence of the first successful listing.
- Git.Tags: the same restriction to a fresh listing applies to the guarantee that every reference is of kind tag.
- Reference-listing lines without a tab are not rejected. `list($hash, $ref)` leaves `$ref` null and `basename(null)` is the empty string, so such a line gives a reference whose name is empty.
- The Subversion backend and the functional tests that need a real `git` are not part of this model.

## Findings

The operations model both discrepancies as the code is written: `Git.Ls` forms the child path of Git.php:223, and `Sessions.Apply` runs `revisionCompare` with the loose `==`. Each corrected definition is a separate member with its intended property proved.

| source | as written | input that shows it | evidently intended | confidence | as-written member | corrected member |
|---|---|---|---|---|---|---|
| src/Webcreate/Vcs/Git.php:447 | the revisions are compared with PHP's loose `==`, which compares two numeric strings as numbers | `revisionCompare('01234', '1234')` on a fetched client returns 0 and runs no `log`, though the abbreviated hashes name different commits | compare revisions as strings (`===`), so only identical revisions give 0 | not executed; medium | Git.RevisionCompareAsWritten, Git.RevisionCompareAsWrittenConflates | Git.RevisionCompare |
| src/Webcreate/Vcs/Git.php:223 | the child path prefix `($path ? $path . '/' : '')` tests the truthiness of the directory, and `'0'` is falsy | `ls('0')` with a child `a.txt` asks `log` about `a.txt` instead of `0/a.txt` | prefix every directory except the top of the working copy (the empty path) | not executed; medium | Args.ChildLogPathAsWritten, Args.ChildLogPathAsWrittenDropsZero, Sessions.LsZeroDir | Args.ChildLogPath, Args.ChildLogPathNamesChild |

=== FILE: args.dfy ===
/**
 * The ordered argument maps the Git adapter hands to its command builder,
 * and the token sequence the builder turns them into (before shell quoting).
 *
 * A PHP argument array mixes string keys (a flag and its value) with
 * integer keys (a positional value); `Arg` keeps that distinction and the
 * array's order.
 */
module Args {
  import opened Outcomes
  import opened Php

  /** The `--pretty=` format that makes `git log` print `<logentry>` blocks. */
  const PrettyFormat: string :=
    "<logentry><commit>%H</commit>%n<date>%aD</date>%n<author>%an</author>%n<msg><![CDATA[%B]]></msg></logentry>"

  /** One entry of an argument array. */
  datatype Arg = Named(flag: string, value: Value) | Positional(value: Value)

  /** A flag such as `--pretty=` whose value is written straight after it. */
  predicate IsJoinedFlag(flag: string) {
    flag != [] && flag[|flag| - 1] == '='
  }

  /** The tokens one entry contributes: a flag set to `true` is a bare flag,
      one set to `false` or `null` is dropped, any other flag is followed by
      its value (joined to it when the flag ends in `=`); a positional `false`
      or `null` is dropped, any other positional value is one token. */
  function Tokens(a: Arg): (t: seq<string>)
    ensures |t| <= 2
    ensures a.value == Null ==> t == []
    ensures a.value == Bool(false) ==> t == []
    ensures a.Positional? && a.value != Null && a.value != Bool(false) ==> t == [ToText(a.value)]
    ensures a.Named? && a.value == Bool(true) ==> t == [a.flag]
    ensures a.Named? && (a.value.Int? || a.value.Str?) && IsJoinedFlag(a.flag) ==> t == [a.flag + ToText(a.value)]
    ensures a.Named? && (a.value.Int? || a.value.Str?) && !IsJoinedFlag(a.flag) ==> t == [a.flag, ToText(a.value)]
  {
    match a
    case Named(f, Null) => []
    case Named(f, Bool(b)) => if b then [f] else []
    case Named(f, v) => if IsJoinedFlag(f) then [f + ToText(v)] else [f, ToText(v)]
    case Positional(Null) => []
    case Positional(Bool(false)) => []
    case Positional(v) => [ToText(v)]
  }

  /** The token sequence for a whole argument array, entries in order. */
  function Render(args: seq<Arg>): seq<string> {
    if args == [] then [] else Tokens(args[0]) + Render(args[1..])
  }

  /** Rendering distributes over concatenation: the order of the array is
      the order of the tokens. */
  lemma {:induction false} RenderAppend(a: seq<Arg>, b: seq<Arg>)
    ensures Render(a + b) == Render(a) + Render(b)
  {
    if a == [] {
      assert a + b == b;
    } else {
      assert (a + b)[0] == a[0];
      assert (a + b)[1..] == a[1..] + b;
      RenderAppend(a[1..], b);
    }
  }

  /** Rendering an array is rendering its first entry, then the rest. */
  lemma RenderCons(x: Arg, rest: seq<Arg>)
    ensures Render([x] + rest) == Tokens(x) + Render(rest)
  {
    assert ([x] + rest)[1..] == rest;
  }

  /** Rendering a short array entry by entry. */
  lemma RenderOne(x: Arg)
    ensures Render([x]) == Tokens(x)
  {
    RenderCons(x, []);
    assert [x] == [x] + [];
  }

  lemma RenderTwo(x: Arg, y: Arg)
    ensures Render([x, y]) == Tokens(x) + Tokens(y)
  {
    RenderOne(y);
    RenderCons(x, [y]);
    assert [x, y] == [x] + [y];
  }

  lemma RenderThree(x: Arg, y: Arg, z: Arg)
    ensures Render([x, y, z]) == Tokens(x) + Tokens(y) + Tokens(z)
  {
    RenderTwo(y, z);
    RenderCons(x, [y, z]);
    assert [x, y, z] == [x] + [y, z];
  }

  /** `array_filter($args, fn($a) => null !== $a)`: every `null` entry
      removed, the others kept in their order. */
  function DropNulls(args: seq<Arg>): (r: seq<Arg>)
    ensures |r| <= |args|
    ensures forall i :: 0 <= i < |r| ==> r[i].value != Null
    ensures forall i :: 0 <= i < |r| ==> r[i] in args
    ensures (forall i :: 0 <= i < |args| ==> args[i].value != Null) ==> r == args
    ensures Render(r) == Render(args)
  {
    if args == [] then []
    else
      var rest := DropNulls(args[1..]);
      if args[0].value == Null then rest else [args[0]] + rest
  }

  /** A possibly-null string as a PHP value. */
  function OptValue(o: Option<string>): Value {
    match o
    case Some(s) => Str(s)
    case None => Null
  }

  /** The present values among `opts`, in order. */
  function Present(opts: seq<Option<string>>): (r: seq<string>)
    ensures |r| <= |opts|
  {
    if opts == [] then []
    else (if opts[0].Some? then [opts[0].value] else []) + Present(opts[1..])
  }

  /** Positional entries for a list of possibly-null values. */
  function Positionals(opts: seq<Option<string>>): (r: seq<Arg>)
    ensures |r| == |opts|
  {
    seq(|opts|, i requires 0 <= i < |opts| => Positional(OptValue(opts[i])))
  }

  lemma {:induction false} RenderPositionals(opts: seq<Option<string>>)
    ensures Render(Positionals(opts)) == Present(opts)
  {
    if opts != [] {
      assert Positionals(opts)[1..] == Positionals(opts[1..]);
      RenderPositionals(opts[1..]);
    }
  }

  // ----- The argument arrays of the individual operations -----

  /** `clone -b <branch> <url> <dest>`. */
  function CloneArgs(branch: string, url: string, dest: string): seq<Arg> {
    [Named("-b", Str(branch)), Positional(Str(url)), Positional(Str(dest))]
  }

  /** `checkout <branch>`. */
  function CheckoutArgs(branch: string): seq<Arg> {
    [Positional(Str(branch))]
  }

  /** `add <path>`. */
  function AddArgs(path: string): seq<Arg> {
    [Positional(Str(path))]
  }

  /** `commit -m <message>`. */
  function CommitArgs(message: string): seq<Arg> {
    [Named("-m", Str(message))]
  }

  /** `status --porcelain [<path>]`. */
  function StatusArgs(path: Option<string>): seq<Arg> {
    [Named("--porcelain", Bool(true))] + (if path.Some? then [Positional(Str(path.value))] else [])
  }

  /** The path `log` asks about: the empty path means the whole tree. */
  function LogPath(path: string): (p: string)
    ensures p != []
    ensures path != [] ==> p == path
  {
    if path == "" then "." else path
  }

  /** `log [-n <limit>] --pretty=<format> <path>`; the limit entry is set to
      `false` unless the limit is truthy. */
  function LogArgs(path: string, limit: Value): seq<Arg> {
    [ Named("-n", if Truthy(limit) then limit else Bool(false)),
      Named("--pretty=", Str(PrettyFormat)),
      Positional(Str(LogPath(path))) ]
  }

  /** `log --pretty=<format> <r1>^1..<r2>`: the commits from `r1` up to `r2`. */
  function ChangelogArgs(revision1: string, revision2: string): seq<Arg> {
    [Named("--pretty=", Str(PrettyFormat)), Positional(Str(revision1 + "^1.." + revision2))]
  }

  /** `log --pretty=oneline <r1>..<r2>`: the commits after `r1` up to `r2`. */
  function RangeArgs(revision1: string, revision2: string): seq<Arg> {
    [Named("--pretty=", Str("oneline")), Positional(Str(revision1 + ".." + revision2))]
  }

  /** `diff [--name-status] <oldRevision> <newRevision> <oldPath> <newPath>`
      with every null entry filtered out. */
  function DiffArgs(oldPath: Option<string>, newPath: Option<string>,
                    oldRevision: Option<string>, newRevision: Option<string>,
                    summary: bool): seq<Arg>
  {
    DropNulls([ Named("--name-status", Bool(summary)),
                Positional(OptValue(oldRevision)),
                Positional(OptValue(newRevision)),
                Positional(OptValue(oldPath)),
                Positional(OptValue(newPath)) ])
  }

  /** `ls-remote --heads <url>` or `ls-remote --tags <url>`. */
  function LsRemoteArgs(listFlag: string, url: string): seq<Arg> {
    [Named(listFlag, Bool(true)), Positional(Str(url))]
  }

  /** `push --porcelain <remote>`. */
  function PushArgs(remote: string): seq<Arg> {
    [Named("--porcelain", Bool(true)), Positional(Str(remote))]
  }

  /** `pull <remote>`. */
  function PullArgs(remote: string): seq<Arg> {
    [Positional(Str(remote))]
  }

  /** `fetch [<remote>]`. */
  function FetchArgs(remote: Option<string>): seq<Arg> {
    if remote.Some? then [Positional(Str(remote.value))] else []
  }

  /** The shallow `clone -b <branch> --depth=1 file://<cwd> <dest>` of the
      local working copy that `export` makes. */
  function ExportCloneArgs(branch: string, cwd: string, dest: string): seq<Arg> {
    [Named("-b", Str(branch)), Positional(Str("--depth=1")), Positional(Str("file://" + cwd)), Positional(Str(dest))]
  }

  /** `submodule update --init --recursive`. */
  function SubmoduleArgs(): seq<Arg> {
    [Positional(Str("update")), Named("--init", Bool(true)), Named("--recursive", Bool(true))]
  }

  // ----- What the rendered arrays look like -----

  /** The diff tokens: `--name-status` first exactly when a summary is asked
      for, then the non-null revisions and paths in the order old revision,
      new revision, old path, new path. */
  lemma DiffTokens(oldPath: Option<string>, newPath: Option<string>,
                   oldRevision: Option<string>, newRevision: Option<string>, summary: bool)
    ensures Render(DiffArgs(oldPath, newPath, oldRevision, newRevision, summary))
         == (if summary then ["--name-status"] else []) + Present([oldRevision, newRevision, oldPath, newPath])
    ensures forall a :: a in DiffArgs(oldPath, newPath, oldRevision, newRevision, summary) ==> a.value != Null
  {
    var opts := [oldRevision, newRevision, oldPath, newPath];
    var full := [ Named("--name-status", Bool(summary)),
                  Positional(OptValue(oldRevision)),
                  Positional(OptValue(newRevision)),
                  Positional(OptValue(oldPath)),
                  Positional(OptValue(newPath)) ];
    assert full == [Named("--name-status", Bool(summary))] + Positionals(opts);
    RenderAppend([Named("--name-status", Bool(summary))], Positionals(opts));
    RenderPositionals(opts);
  }

  /** The log tokens: `-n` leads exactly when the limit is truthy (followed
      by the limit unless it is `true`), and the list always ends with the
      pretty format and then the path, `.` standing for the empty path. */
  lemma LogTokens(path: string, limit: Value)
    ensures var t := Render(LogArgs(path, limit));
      && |t| >= 2
      && (t[0] == "-n" <==> Truthy(limit))
      && t[|t| - 2..] == ["--pretty=" + PrettyFormat, LogPath(path)]
      && (!Truthy(limit) ==> |t| == 2)
      && (Truthy(limit) && !limit.Bool? ==> |t| == 4 && t[1] == ToText(limit))
      && (path == "" ==> t[|t| - 1] == ".")
      && (path != "" ==> t[|t| - 1] == path)
  {
    var args := LogArgs(path, limit);
    RenderThree(args[0], args[1], args[2]);
    assert Tokens(args[1]) == ["--pretty=" + PrettyFormat];
    assert ("--pretty=" + PrettyFormat)[..2] == "--";
  }

  /** The two command lines the adapter's tests expect from `log('/dir1', null, 10)`
      and `log('/dir1', null, null)`, token by token. */
  lemma LogCommandLines()
    ensures Render(LogArgs("/dir1", Int(10))) == ["-n", "10", "--pretty=" + PrettyFormat, "/dir1"]
    ensures Render(LogArgs("/dir1", Null)) == ["--pretty=" + PrettyFormat, "/dir1"]
  {
    assert Digits(10) == Digits(1) + [DigitChar(0)];
    assert IntToString(10) == "10";
    var a := LogArgs("/dir1", Int(10));
    RenderThree(a[0], a[1], a[2]);
    var b := LogArgs("/dir1", Null);
    RenderThree(b[0], b[1], b[2]);
  }

  /** The clone command line the adapter's tests expect, token by token. */
  lemma CloneCommandLine(url: string, dest: string)
    ensures Render(CloneArgs("master", url, dest)) == ["-b", "master", url, dest]
  {
    var a := CloneArgs("master", url, dest);
    RenderThree(a[0], a[1], a[2]);
  }

  /** The status tokens: `--porcelain`, then the path when one is given. */
  lemma StatusTokens(path: Option<string>)
    ensures Render(StatusArgs(path)) == ["--porcelain"] + Present([path])
  {
    var a := StatusArgs(path);
    RenderOne(a[0]);
    if path.Some? {
      RenderTwo(a[0], a[1]);
    }
    assert Present([path]) == (if path.Some? then [path.value] else []) + Present([]);
  }

  /** The fetch tokens: the remote alone, or nothing when it is null. */
  lemma FetchTokens(remote: Option<string>)
    ensures Render(FetchArgs(remote)) == Present([remote])
  {
  }

  // ----- The per-child path `ls` asks `log` about -----

  /** The path of `name` inside the listed directory `dir`, as written:
      `($path ? $path . '/' : '') . $name`, which tests PHP truthiness. */
  function ChildLogPathAsWritten(dir: string, name: string): (p: string)
    ensures p == ChildLogPath(dir, name) <==> dir != "0"
  {
    (if Truthy(Str(dir)) then dir + "/" else "") + name
  }

  /** The path of `name` inside the listed directory `dir`; only the root
      directory (the empty path) gets no prefix. */
  function ChildLogPath(dir: string, name: string): (p: string)
    ensures |p| >= |dir| && p[..|dir|] == dir
  {
    (if dir == "" then "" else dir + "/") + name
  }

  /** The corrected child path names the child inside the listed directory:
      the directory and a slash lead it, and its basename is the child. */
  lemma ChildLogPathNamesChild(dir: string, name: string)
    requires name != [] && '/' !in name
    ensures var p := ChildLogPath(dir, name);
      && Basename(p) == name
      && (dir != "" ==> p[..|dir| + 1] == dir + "/")
  {
    if dir == "" {
      assert StripTrailingSlashes(name) == name;
    } else {
      BasenameOfChild(dir, name);
    }
  }

  /** As written, listing a directory named `0` asks `log` about the child
      at the top of the tree instead: the directory is dropped. */
  lemma ChildLogPathAsWrittenDropsZero()
    ensures ChildLogPathAsWritten("0", "a.txt") == "a.txt"
    ensures ChildLogPath("0", "a.txt") == "0/a.txt"
  {
  }
}

=== FILE: git.dfy ===
/**
 * The Git client: lifecycle flags, the remote-reference caches and every
 * operation of the adapter, over an external executor.
 *
 * The client is a value; each operation takes the client and returns the
 * client after the call together with the call's result. The executor is an
 * oracle that answers the n-th command the client issues, and every issued
 * command is recorded, with its answer, in the client's trace `issued`.
 */
module Git {
  import opened Outcomes
  import opened Php
  import opened Refs
  import opened Args

  /** A command line before quoting: the Git sub-command and its arguments. */
  datatype Command = Command(op: string, args: seq<Arg>)

  /** What the executor reports: the standard output of a run that exited
      normally, or the diagnostics of one that failed. */
  datatype Response = Completed(output: string) | Failed(diagnostics: string)

  /** One issued command with the executor's answer to it. */
  datatype Exchange = Exchange(command: Command, response: Response)

  /** The external executor: the answer to the n-th command issued. */
  type Executor = (nat, Command) -> Response

  /** The errors a call can raise. */
  datatype Error =
    | PreconditionError        // the call needs an active checkout
    | NotFound(path: string)   // the path is not in the working copy
    | ProcessError(diagnostics: string)

  /** The state of one client instance. `head` is the name of the branch
      the client works on. */
  datatype Client = Client(
    url: string,
    cwd: string,
    head: string,
    hasClone: bool,
    hasCheckout: bool,
    isFetched: bool,
    branches: Option<seq<Reference>>,
    tags: Option<seq<Reference>>,
    issued: seq<Exchange>)

  /** The client after a call, and what the call returned or raised. */
  datatype Step<T> = Step(client: Client, result: Result<T, Error>)

  /** The kind of an entry `ls` lists. */
  datatype FileKind = File | Dir

  /** One entry of a directory as the file system enumerates it. */
  datatype Child = Child(name: string, isDir: bool)

  /** One entry `ls` returns: its name, the branch it was listed on, its
      kind and the `log` output for its path (whose first entry is the
      latest commit touching it). */
  datatype FileEntry = FileEntry(name: string, head: string, kind: FileKind, commit: string)

  const DefaultRemote: string := "origin"

  /** A client bound to a repository URL and a working directory, before
      anything has been cloned, checked out, fetched or listed. */
  function NewClient(url: string, cwd: string, head: string): (c: Client)
    ensures !c.hasClone && !c.hasCheckout && !c.isFetched
    ensures c.branches == None && c.tags == None && c.issued == []
  {
    Client(url, cwd, head, false, false, false, None, None, [])
  }

  // ----- The executor and the trace -----

  /** The answer the executor gives to `cmd` issued next. */
  function Answer(c: Client, ex: Executor, cmd: Command): Response {
    ex(|c.issued|, cmd)
  }

  /** The client with `cmd` and its answer appended to the trace. */
  function Issue(c: Client, ex: Executor, cmd: Command): Client {
    c.(issued := c.issued + [Exchange(cmd, Answer(c, ex, cmd))])
  }

  /** A normal exit yields the output, a failure raises. */
  function Outcome(r: Response): Result<string, Error> {
    match r
    case Completed(o) => Success(o)
    case Failed(d) => Failure(ProcessError(d))
  }

  predicate IsFetch(e: Exchange) {
    e.command.op == "fetch"
  }

  /** The number of `fetch` commands in a trace. */
  function FetchesIssued(t: seq<Exchange>): nat {
    if t == [] then 0
    else FetchesIssued(t[..|t| - 1]) + (if IsFetch(t[|t| - 1]) then 1 else 0)
  }

  /** The number of `fetch` commands in a trace that completed. */
  function FetchesCompleted(t: seq<Exchange>): nat {
    if t == [] then 0
    else FetchesCompleted(t[..|t| - 1]) + (if IsFetch(t[|t| - 1]) && t[|t| - 1].response.Completed? then 1 else 0)
  }

  /** Runs one command: it is recorded in the trace, together with the
      executor's answer, and its output is the result. */
  function Execute(c: Client, ex: Executor, cmd: Command): (s: Step<string>)
    ensures s.client == Issue(c, ex, cmd)
    ensures s.result == Outcome(Answer(c, ex, cmd))
    ensures |s.client.issued| == |c.issued| + 1
    ensures s.client.issued[|c.issued|] == Exchange(cmd, Answer(c, ex, cmd))
    ensures FetchesIssued(s.client.issued)
         == FetchesIssued(c.issued) + (if cmd.op == "fetch" then 1 else 0)
    ensures FetchesCompleted(s.client.issued)
         == FetchesCompleted(c.issued) + (if cmd.op == "fetch" && Answer(c, ex, cmd).Completed? then 1 else 0)
    ensures Monotone(c, s.client)
    ensures cmd.op != "fetch" ==> NoFetch(c, s.client)
  {
    var t := c.issued + [Exchange(cmd, Answer(c, ex, cmd))];
    assert t[..|t| - 1] == c.issued;
    Step(Issue(c, ex, cmd), Outcome(Answer(c, ex, cmd)))
  }

  /** `d` is a later state of the client `c`: same repository, the trace
      only grows, the lifecycle flags never go back to false and a filled
      reference cache is never replaced. */
  predicate Monotone(c: Client, d: Client) {
    && d.url == c.url && d.head == c.head
    && c.issued <= d.issued
    && (c.hasClone ==> d.hasClone)
    && (c.hasCheckout ==> d.hasCheckout)
    && (c.isFetched ==> d.isFetched)
    && (c.branches.Some? ==> d.branches == c.branches)
    && (c.tags.Some? ==> d.tags == c.tags)
  }

  lemma MonotoneTransitive(c: Client, d: Client, e: Client)
    requires Monotone(c, d) && Monotone(d, e)
    ensures Monotone(c, e)
  {
  }

  /** Between `c` and `d` no `fetch` command was issued. */
  predicate NoFetch(c: Client, d: Client) {
    && FetchesIssued(d.issued) == FetchesIssued(c.issued)
    && FetchesCompleted(d.issued) == FetchesCompleted(c.issued)
  }

  /** Between `c` and `d` at most one `fetch` completed, one completed only
      if `d` knows it is fetched, and none was even issued if `c` already was. */
  predicate FetchAccounting(c: Client, d: Client) {
    && FetchesIssued(d.issued) <= FetchesIssued(c.issued) + 1
    && FetchesCompleted(d.issued) <= FetchesCompleted(c.issued) + 1
    && (FetchesCompleted(d.issued) > FetchesCompleted(c.issued) ==> d.isFetched)
    && (c.isFetched ==> NoFetch(c, d))
  }

  /** A call that issues no `fetch` after one that keeps the accounts. */
  lemma AccountingThenQuiet(c: Client, d: Client, e: Client)
    requires Monotone(c, d) && FetchAccounting(c, d)
    requires Monotone(d, e) && NoFetch(d, e)
    ensures Monotone(c, e) && FetchAccounting(c, e)
  {
  }

  /** Two calls that each keep the accounts, the second on a fetched client. */
  lemma AccountingThenFetched(c: Client, d: Client, e: Client)
    requires Monotone(c, d) && FetchAccounting(c, d) && d.isFetched
    requires Monotone(d, e) && FetchAccounting(d, e)
    ensures Monotone(c, e) && FetchAccounting(c, e)
  {
  }

  // ----- Operations that need an active checkout -----

  /** `add($path)`: raises, issuing nothing, without a checkout. */
  function Add(c: Client, ex: Executor, path: string): (s: Step<string>)
    ensures !c.hasCheckout ==> s == Step(c, Failure(PreconditionError))
    ensures c.hasCheckout ==>
      && s.client == Issue(c, ex, Command("add", AddArgs(path)))
      && s.result == Outcome(Answer(c, ex, Command("add", AddArgs(path))))
    ensures Monotone(c, s.client) && NoFetch(c, s.client)
  {
    if !c.hasCheckout then Step(c, Failure(PreconditionError))
    else Execute(c, ex, Command("add", AddArgs(path)))
  }

  /** `commit($message)`: raises, issuing nothing, without a checkout. */
  function Commit(c: Client, ex: Executor, message: string): (s: Step<string>)
    ensures !c.hasCheckout ==> s == Step(c, Failure(PreconditionError))
    ensures c.hasCheckout ==>
      && s.client == Issue(c, ex, Command("commit", CommitArgs(message)))
      && s.result == Outcome(Answer(c, ex, Command("commit", CommitArgs(message))))
    ensures Monotone(c, s.client) && NoFetch(c, s.client)
  {
    if !c.hasCheckout then Step(c, Failure(PreconditionError))
    else Execute(c, ex, Command("commit", CommitArgs(message)))
  }

  /** `status($path)`: raises, issuing nothing, without a checkout. */
  function Status(c: Client, ex: Executor, path: Option<string>): (s: Step<string>)
    ensures !c.hasCheckout ==> s == Step(c, Failure(PreconditionError))
    ensures c.hasCheckout ==>
      && s.client == Issue(c, ex, Command("status", StatusArgs(path)))
      && s.result == Outcome(Answer(c, ex, Command("status", StatusArgs(path))))
    ensures Monotone(c, s.client) && NoFetch(c, s.client)
  {
    if !c.hasCheckout then Step(c, Failure(PreconditionError))
    else Execute(c, ex, Command("status", StatusArgs(path)))
  }

  /** `push($remote)`: raises, issuing nothing, without a checkout; a failed
      push is swallowed and yields `null`. */
  function Push(c: Client, ex: Executor, remote: string): (s: Step<Option<string>>)
    ensures !c.hasCheckout ==> s == Step(c, Failure(PreconditionError))
    ensures c.hasCheckout ==>
      var cmd := Command("push", PushArgs(remote));
      && s.client == Issue(c, ex, cmd)
      && s.result.Success?
      && (Answer(c, ex, cmd).Completed? ==> s.result.value == Some(Answer(c, ex, cmd).output))
      && (Answer(c, ex, cmd).Failed? ==> s.result.value == None)
    ensures Monotone(c, s.client) && NoFetch(c, s.client)
  {
    if !c.hasCheckout then Step(c, Failure(PreconditionError))
    else
      var r := Execute(c, ex, Command("push", PushArgs(remote)));
      Step(r.client, Success(if r.result.Success? then Some(r.result.value) else None))
  }

  /** `pull($remote)`: raises, issuing nothing, without a checkout. */
  function Pull(c: Client, ex: Executor, remote: string): (s: Step<string>)
    ensures !c.hasCheckout ==> s == Step(c, Failure(PreconditionError))
    ensures c.hasCheckout ==>
      && s.client == Issue(c, ex, Command("pull", PullArgs(remote)))
      && s.result == Outcome(Answer(c, ex, Command("pull", PullArgs(remote))))
    ensures Monotone(c, s.client) && NoFetch(c, s.client)
  {
    if !c.hasCheckout then Step(c, Failure(PreconditionError))
    else Execute(c, ex, Command("pull", PullArgs(remote)))
  }

  // ----- Clone and checkout -----

  /** The `clone` command for a destination (the working directory when none is given). */
  function CloneCommand(c: Client, dest: Option<string>): Command {
    Command("clone", CloneArgs(c.head, c.url, OrElse(dest, c.cwd)))
  }

  /** `cloneRepository($dest)`: clones the working branch into the
      destination, which becomes the working directory; a clone counts as
      a fetch. A failed clone changes nothing but the trace. */
  function CloneRepository(c: Client, ex: Executor, dest: Option<string>): (s: Step<()>)
    ensures var cmd := CloneCommand(c, dest);
      && s.client.issued == c.issued + [Exchange(cmd, Answer(c, ex, cmd))]
      && (Answer(c, ex, cmd).Failed? ==>
            s == Step(Issue(c, ex, cmd), Failure(ProcessError(Answer(c, ex, cmd).diagnostics))))
      && (Answer(c, ex, cmd).Completed? ==>
            && s.result.Success?
            && s.client == Issue(c, ex, cmd).(cwd := OrElse(dest, c.cwd), hasClone := true, isFetched := true))
    ensures Monotone(c, s.client) && NoFetch(c, s.client)
  {
    var r := Execute(c, ex, CloneCommand(c, dest));
    if r.result.Failure? then Step(r.client, Failure(r.result.error))
    else Step(r.client.(cwd := OrElse(dest, c.cwd), hasClone := true, isFetched := true), Success(()))
  }

  /** The command `checkout` starts with: a clone when there is none yet or
      a destination is given, otherwise a switch to the working branch. */
  function CheckoutCommand(c: Client, dest: Option<string>): Command {
    if !c.hasClone || dest.Some? then CloneCommand(c, dest)
    else Command("checkout", CheckoutArgs(c.head))
  }

  /** The first half of `checkout`: a clone when there is none yet or a
      destination is given, otherwise a switch to the working branch. */
  function Materialize(c: Client, ex: Executor, dest: Option<string>): (s: Step<()>)
    ensures var first := CheckoutCommand(c, dest); var r1 := Answer(c, ex, first);
      && s.client.issued == c.issued + [Exchange(first, r1)]
      && (r1.Failed? ==> s == Step(Issue(c, ex, first), Failure(ProcessError(r1.diagnostics))))
      && (r1.Completed? ==> s.result.Success? && s.client.hasClone && s.client.hasCheckout == c.hasCheckout)
      && ((!c.hasClone || dest.Some?) && r1.Completed? ==>
            s.client.isFetched && s.client.cwd == OrElse(dest, c.cwd))
    ensures dest.None? ==> s.client.cwd == c.cwd
    ensures Monotone(c, s.client) && NoFetch(c, s.client)
  {
    if !c.hasClone || dest.Some? then CloneRepository(c, ex, dest)
    else
      var r := Execute(c, ex, Command("checkout", CheckoutArgs(c.head)));
      Step(r.client.(hasClone := true), Discard(r.result))
  }

  /** `checkout($dest)`: clones or switches branch, marks the checkout
      active and pulls from the default remote. */
  function Checkout(c: Client, ex: Executor, dest: Option<string>): (s: Step<()>)
    ensures var first := CheckoutCommand(c, dest); var r1 := Answer(c, ex, first);
      && |s.client.issued| > |c.issued|
      && s.client.issued[|c.issued|] == Exchange(first, r1)
      && (r1.Failed? ==> s == Step(Issue(c, ex, first), Failure(ProcessError(r1.diagnostics))))
      && (r1.Completed? ==>
            && |s.client.issued| == |c.issued| + 2
            && s.client.issued[|c.issued| + 1].command == Command("pull", PullArgs(DefaultRemote))
            && s.client.hasClone && s.client.hasCheckout
            && (s.result.Success? <==> s.client.issued[|c.issued| + 1].response.Completed?))
      && ((!c.hasClone || dest.Some?) && r1.Completed? ==>
            s.client.isFetched && s.client.cwd == OrElse(dest, c.cwd))
    ensures dest.None? ==> s.client.cwd == c.cwd
    ensures Monotone(c, s.client) && NoFetch(c, s.client)
  {
    var first := Materialize(c, ex, dest);
    if first.result.Failure? then first
    else
      var d := first.client.(hasCheckout := true);
      var pulled := Pull(d, ex, DefaultRemote);
      assert pulled.client.issued == first.client.issued + [pulled.client.issued[|first.client.issued|]];
      MonotoneTransitive(c, d, pulled.client);
      Step(pulled.client, Discard(pulled.result))
  }

  /** The first command issued after `c` in the trace of `d` is `cmd`. */
  predicate Began(c: Client, d: Client, cmd: Command) {
    |d.issued| > |c.issued| && d.issued[|c.issued|].command == cmd
  }

  /** Makes sure a checkout is active, checking out first when it is not. */
  function EnsureCheckout(c: Client, ex: Executor): (s: Step<()>)
    ensures c.hasCheckout ==> s == Step(c, Success(()))
    ensures !c.hasCheckout ==> Began(c, s.client, CheckoutCommand(c, None))
    ensures !c.hasCheckout && s.result.Success? ==> |s.client.issued| == |c.issued| + 2
    ensures s.result.Success? ==> s.client.hasCheckout
    ensures s.client.cwd == c.cwd
    ensures Monotone(c, s.client) && NoFetch(c, s.client)
  {
    if c.hasCheckout then Step(c, Success(())) else Checkout(c, ex, None)
  }

  // ----- Fetch and the operations that need it -----

  /** `fetch($remote)`: a no-op returning false once fetched; otherwise
      checks out when there is no clone, issues one `fetch` (naming the
      remote when one is given) and returns true. */
  function Fetch(c: Client, ex: Executor, remote: Option<string>): (s: Step<bool>)
    ensures c.isFetched ==> s == Step(c, Success(false))
    ensures !c.isFetched && c.hasClone ==>
      var cmd := Command("fetch", FetchArgs(remote));
      var r := Answer(c, ex, cmd);
      && (r.Failed? ==> s == Step(Issue(c, ex, cmd), Failure(ProcessError(r.diagnostics))))
      && (r.Completed? ==> s == Step(Issue(c, ex, cmd).(isFetched := true), Success(true)))
    ensures !c.isFetched && !c.hasClone ==>
      |s.client.issued| > |c.issued| && s.client.issued[|c.issued|].command == CloneCommand(c, None)
    ensures !c.isFetched && s.result.Success? ==>
      && s.result.value
      && |s.client.issued| > |c.issued|
      && s.client.issued[|s.client.issued| - 1].command == Command("fetch", FetchArgs(remote))
      && s.client.issued[|s.client.issued| - 1].response.Completed?
    ensures s.result.Success? ==> s.client.isFetched
    ensures !c.isFetched && s.result.Success? ==> FetchesCompleted(s.client.issued) == FetchesCompleted(c.issued) + 1
    ensures Monotone(c, s.client) && FetchAccounting(c, s.client)
  {
    if c.isFetched then Step(c, Success(false))
    else
      var prepared := if !c.hasClone then Checkout(c, ex, None) else Step(c, Success(()));
      if prepared.result.Failure? then Step(prepared.client, Failure(prepared.result.error))
      else
        var f := Execute(prepared.client, ex, Command("fetch", FetchArgs(remote)));
        if f.result.Failure? then Step(f.client, Failure(f.result.error))
        else Step(f.client.(isFetched := true), Success(true))
  }

  /** Fetches (from the default remote) when needed, then runs `cmd`. */
  function AfterFetch(c: Client, ex: Executor, cmd: Command): (s: Step<string>)
    requires cmd.op != "fetch"
    ensures c.isFetched ==> s.client == Issue(c, ex, cmd) && s.result == Outcome(Answer(c, ex, cmd))
    ensures s.result.Success? ==>
      && s.client.isFetched
      && |s.client.issued| > |c.issued|
      && s.client.issued[|s.client.issued| - 1] == Exchange(cmd, Completed(s.result.value))
    ensures !c.isFetched && s.result.Success? ==> FetchesCompleted(s.client.issued) == FetchesCompleted(c.issued) + 1
    ensures Monotone(c, s.client) && FetchAccounting(c, s.client)
  {
    var f := Fetch(c, ex, None);
    if f.result.Failure? then Step(f.client, Failure(f.result.error))
    else
      var r := Execute(f.client, ex, cmd);
      AccountingThenQuiet(c, f.client, r.client);
      r
  }

  /** `log($path, $revision, $limit)`: fetches when needed, then runs one
      `log` (the revision is not passed on). */
  function Log(c: Client, ex: Executor, path: string, limit: Value): (s: Step<string>)
    ensures var cmd := Command("log", LogArgs(path, limit));
      && (c.isFetched ==> s.client == Issue(c, ex, cmd) && s.result == Outcome(Answer(c, ex, cmd)))
      && (s.result.Success? ==>
            && s.client.isFetched
            && |s.client.issued| > |c.issued|
            && s.client.issued[|s.client.issued| - 1] == Exchange(cmd, Completed(s.result.value)))
    ensures !c.isFetched && s.result.Success? ==> FetchesCompleted(s.client.issued) == FetchesCompleted(c.issued) + 1
    ensures Monotone(c, s.client) && FetchAccounting(c, s.client)
  {
    AfterFetch(c, ex, Command("log", LogArgs(path, limit)))
  }

  /** `changelog($revision1, $revision2)`: fetches when needed, then runs
      one `log` over `revision1^1..revision2`. */
  function Changelog(c: Client, ex: Executor, revision1: string, revision2: string): (s: Step<string>)
    ensures var cmd := Command("log", ChangelogArgs(revision1, revision2));
      && (c.isFetched ==> s.client == Issue(c, ex, cmd) && s.result == Outcome(Answer(c, ex, cmd)))
      && (s.result.Success? ==>
            && s.client.isFetched
            && |s.client.issued| > |c.issued|
            && s.client.issued[|s.client.issued| - 1] == Exchange(cmd, Completed(s.result.value)))
    ensures !c.isFetched && s.result.Success? ==> FetchesCompleted(s.client.issued) == FetchesCompleted(c.issued) + 1
    ensures Monotone(c, s.client) && FetchAccounting(c, s.client)
  {
    AfterFetch(c, ex, Command("log", ChangelogArgs(revision1, revision2)))
  }

  /** `diff($oldPath, $newPath, $oldRevision, $newRevision, $summary)`:
      fetches when needed, then runs one `diff`. */
  function Diff(c: Client, ex: Executor, oldPath: Option<string>, newPath: Option<string>,
                oldRevision: Option<string>, newRevision: Option<string>, summary: bool): (s: Step<string>)
    ensures var cmd := Command("diff", DiffArgs(oldPath, newPath, oldRevision, newRevision, summary));
      && (c.isFetched ==> s.client == Issue(c, ex, cmd) && s.result == Outcome(Answer(c, ex, cmd)))
      && (s.result.Success? ==>
            && s.client.isFetched
            && |s.client.issued| > |c.issued|
            && s.client.issued[|s.client.issued| - 1] == Exchange(cmd, Completed(s.result.value)))
    ensures !c.isFetched && s.result.Success? ==> FetchesCompleted(s.client.issued) == FetchesCompleted(c.issued) + 1
    ensures Monotone(c, s.client) && FetchAccounting(c, s.client)
  {
    AfterFetch(c, ex, Command("diff", DiffArgs(oldPath, newPath, oldRevision, newRevision, summary)))
  }

  /** The comparison behind `revisionCompare`, given whether the two
      revisions count as the same: 0 for the same revision, otherwise 1 when
      no commit lies after `revision1` up to `revision2` and -1 when one does. */
  function CompareRevisions(c: Client, ex: Executor, revision1: string, revision2: string, same: bool): (s: Step<int>)
    ensures s.result.Success? ==> s.result.value in {-1, 0, 1}
    ensures s.result.Success? ==> (s.result.value == 0 <==> same)
    ensures c.isFetched && same ==> s == Step(c, Success(0))
    ensures c.isFetched && !same ==>
      var cmd := Command("log", RangeArgs(revision1, revision2));
      && s.client == Issue(c, ex, cmd)
      && s.result.Success? == Answer(c, ex, cmd).Completed?
      && (s.result.Success? ==> (s.result.value == 1 <==> Answer(c, ex, cmd).output == ""))
    ensures !same && s.result.Success? ==>
      && |s.client.issued| > |c.issued|
      && var last := s.client.issued[|s.client.issued| - 1];
      && last.command == Command("log", RangeArgs(revision1, revision2))
      && last.response.Completed?
      && (s.result.value == 1 <==> last.response.output == "")
    ensures s.result.Success? ==> s.client.isFetched
    ensures !c.isFetched && s.result.Success? ==> FetchesCompleted(s.client.issued) == FetchesCompleted(c.issued) + 1
    ensures Monotone(c, s.client) && FetchAccounting(c, s.client)
  {
    var f := Fetch(c, ex, None);
    if f.result.Failure? then Step(f.client, Failure(f.result.error))
    else if same then Step(f.client, Success(0))
    else
      var l := RangeLog(f.client, ex, revision1, revision2);
      AccountingThenQuiet(c, f.client, l.client);
      l
  }

  /** The `log` behind a comparison of two different revisions: 1 when no
      commit lies after `revision1` up to `revision2` (empty output), -1 when
      one does; a failed `log` raises. */
  function RangeLog(c: Client, ex: Executor, revision1: string, revision2: string): (s: Step<int>)
    ensures var cmd := Command("log", RangeArgs(revision1, revision2));
      && s.client == Issue(c, ex, cmd)
      && (s.result.Success? <==> Answer(c, ex, cmd).Completed?)
      && (s.result.Success? ==> s.result.value in {-1, 1})
      && (s.result.Success? ==> (s.result.value == 1 <==> Answer(c, ex, cmd).output == ""))
    ensures s.result.Success? ==>
      && |s.client.issued| > |c.issued|
      && var last := s.client.issued[|s.client.issued| - 1];
      && last.command == Command("log", RangeArgs(revision1, revision2))
      && last.response.Completed?
      && (s.result.value == 1 <==> last.response.output == "")
    ensures Monotone(c, s.client) && NoFetch(c, s.client)
  {
    var l := Execute(c, ex, Command("log", RangeArgs(revision1, revision2)));
    if l.result.Failure? then Step(l.client, Failure(l.result.error))
    else Step(l.client, Success(if l.result.value == "" then 1 else -1))
  }

  /** `revisionCompare($revision1, $revision2)` with revisions compared as
      strings: equal revisions give 0 without running `log`. */
  function RevisionCompare(c: Client, ex: Executor, revision1: string, revision2: string): (s: Step<int>)
    ensures s.result.Success? ==> s.result.value in {-1, 0, 1}
    ensures s.result.Success? ==> (s.result.value == 0 <==> revision1 == revision2)
    ensures c.isFetched && revision1 == revision2 ==> s == Step(c, Success(0))
    ensures c.isFetched && revision1 != revision2 ==>
      var cmd := Command("log", RangeArgs(revision1, revision2));
      && s.client == Issue(c, ex, cmd)
      && (s.result.Success? <==> Answer(c, ex, cmd).Completed?)
      && (s.result.Success? ==> (s.result.value == 1 <==> Answer(c, ex, cmd).output == ""))
    ensures revision1 != revision2 && s.result.Success? ==>
      && |s.client.issued| > |c.issued|
      && var last := s.client.issued[|s.client.issued| - 1];
      && last.command == Command("log", RangeArgs(revision1, revision2))
      && last.response.Completed?
      && (s.result.value == 1 <==> last.response.output == "")
    ensures !c.isFetched && s.result.Success? ==> FetchesCompleted(s.client.issued) == FetchesCompleted(c.issued) + 1
    ensures Monotone(c, s.client) && FetchAccounting(c, s.client)
  {
    CompareRevisions(c, ex, revision1, revision2, revision1 == revision2)
  }

  /** `revisionCompare` as written, comparing the revisions with PHP's loose `==`. */
  function RevisionCompareAsWritten(c: Client, ex: Executor, revision1: string, revision2: string): (s: Step<int>)
    ensures s.result.Success? ==> s.result.value in {-1, 0, 1}
    ensures s.result.Success? ==> (s.result.value == 0 <==> LooseEquals(revision1, revision2))
    ensures c.isFetched && LooseEquals(revision1, revision2) ==> s == Step(c, Success(0))
    ensures c.isFetched && !LooseEquals(revision1, revision2) ==>
      var cmd := Command("log", RangeArgs(revision1, revision2));
      && s.client == Issue(c, ex, cmd)
      && (s.result.Success? <==> Answer(c, ex, cmd).Completed?)
      && (s.result.Success? ==> (s.result.value == 1 <==> Answer(c, ex, cmd).output == ""))
    ensures !LooseEquals(revision1, revision2) && s.result.Success? ==>
      && |s.client.issued| > |c.issued|
      && var last := s.client.issued[|s.client.issued| - 1];
      && last.command == Command("log", RangeArgs(revision1, revision2))
      && last.response.Completed?
      && (s.result.value == 1 <==> last.response.output == "")
    ensures !c.isFetched && s.result.Success? ==> FetchesCompleted(s.client.issued) == FetchesCompleted(c.issued) + 1
    ensures Monotone(c, s.client) && FetchAccounting(c, s.client)
  {
    CompareRevisions(c, ex, revision1, revision2, LooseEquals(revision1, revision2))
  }

  /** As written, two different all-digit revisions compare as equal and no
      `log` is run; with string comparison the `log` is run. */
  lemma RevisionCompareAsWrittenConflates(c: Client, ex: Executor)
    requires c.isFetched
    ensures RevisionCompareAsWritten(c, ex, "01234", "1234") == Step(c, Success(0))
    ensures RevisionCompare(c, ex, "01234", "1234").client
         == Issue(c, ex, Command("log", RangeArgs("01234", "1234")))
  {
    LooseEqualsConflatesNumerals();
  }

  // ----- Remote references -----

  /** The cache for references of one kind. */
  function Cache(c: Client, kind: RefKind): Option<seq<Reference>>
    requires kind != Head
  {
    if kind == Branch then c.branches else c.tags
  }

  /** The `ls-remote` flag that lists references of one kind. */
  function ListFlag(kind: RefKind): string
    requires kind != Head
  {
    if kind == Branch then "--heads" else "--tags"
  }

  /** Lists the remote references of one kind, once: a filled cache is
      returned as is; otherwise one `ls-remote` is run and its parsed
      listing is cached and returned. */
  function ListRemote(c: Client, ex: Executor, kind: RefKind): (s: Step<seq<Reference>>)
    requires kind != Head
    ensures Cache(c, kind).Some? ==> s == Step(c, Success(Cache(c, kind).value))
    ensures Cache(c, kind).None? ==>
      var cmd := Command("ls-remote", LsRemoteArgs(ListFlag(kind), c.url));
      && s.client.issued == c.issued + [Exchange(cmd, Answer(c, ex, cmd))]
      && (Answer(c, ex, cmd).Failed? ==> s == Step(Issue(c, ex, cmd), Failure(ProcessError(Answer(c, ex, cmd).diagnostics))))
      && (Answer(c, ex, cmd).Completed? ==>
            && s.result == Success(ParseListing(Answer(c, ex, cmd).output, kind))
            && Cache(s.client, kind) == Some(s.result.value))
    ensures s.result.Success? ==> Cache(s.client, kind) == Some(s.result.value)
    ensures s.client.hasClone == c.hasClone && s.client.hasCheckout == c.hasCheckout
    ensures s.client.isFetched == c.isFetched && s.client.cwd == c.cwd
    ensures Monotone(c, s.client) && NoFetch(c, s.client)
  {
    if Cache(c, kind).Some? then Step(c, Success(Cache(c, kind).value))
    else
      var r := Execute(c, ex, Command("ls-remote", LsRemoteArgs(ListFlag(kind), c.url)));
      if r.result.Failure? then Step(r.client, Failure(r.result.error))
      else
        var refs := ParseListing(r.result.value, kind);
        var d := if kind == Branch then r.client.(branches := Some(refs)) else r.client.(tags := Some(refs));
        Step(d, Success(refs))
  }

  /** `branches()`: the remote branches, each of kind BRANCH. The first
      successful `ls-remote --heads` is cached; a failed one caches nothing,
      so the next call lists again. */
  function Branches(c: Client, ex: Executor): (s: Step<seq<Reference>>)
    ensures c.branches.Some? ==> s == Step(c, Success(c.branches.value))
    ensures c.branches.None? ==>
      var cmd := Command("ls-remote", LsRemoteArgs("--heads", c.url));
      && s.client.issued == c.issued + [Exchange(cmd, Answer(c, ex, cmd))]
      && (Answer(c, ex, cmd).Completed? ==> s.result == Success(ParseListing(Answer(c, ex, cmd).output, Branch)))
      && (Answer(c, ex, cmd).Failed? ==> s.result.Failure? && s.client.branches == None)
    ensures s.result.Success? ==> s.client.branches == Some(s.result.value)
    ensures c.branches.None? && s.result.Success? ==> forall i :: 0 <= i < |s.result.value| ==> s.result.value[i].kind == Branch
    ensures s.client.tags == c.tags
    ensures Monotone(c, s.client) && NoFetch(c, s.client)
  {
    ListRemote(c, ex, Branch)
  }

  /** `tags()`: the remote tags, each of kind TAG. The first successful
      `ls-remote --tags` is cached; a failed one caches nothing, so the next
      call lists again. */
  function Tags(c: Client, ex: Executor): (s: Step<seq<Reference>>)
    ensures c.tags.Some? ==> s == Step(c, Success(c.tags.value))
    ensures c.tags.None? ==>
      var cmd := Command("ls-remote", LsRemoteArgs("--tags", c.url));
      && s.client.issued == c.issued + [Exchange(cmd, Answer(c, ex, cmd))]
      && (Answer(c, ex, cmd).Completed? ==> s.result == Success(ParseListing(Answer(c, ex, cmd).output, Tag)))
      && (Answer(c, ex, cmd).Failed? ==> s.result.Failure? && s.client.tags == None)
    ensures s.result.Success? ==> s.client.tags == Some(s.result.value)
    ensures c.tags.None? && s.result.Success? ==> forall i :: 0 <= i < |s.result.value| ==> s.result.value[i].kind == Tag
    ensures s.client.branches == c.branches
    ensures Monotone(c, s.client) && NoFetch(c, s.client)
  {
    ListRemote(c, ex, Tag)
  }

  // ----- Operations on the working copy -----

  /** The directory `ls` lists: `/` stands for the top of the working copy. */
  function ListedDir(path: string): string {
    if path == "/" then "" else path
  }

  /** The kind of entry a child is listed as. */
  function KindOf(child: Child): FileKind {
    if child.isDir then Dir else File
  }

  /** `entries` lists `children` one for one, in order, by name and kind,
      each on the branch `head`. */
  predicate Lists(entries: seq<FileEntry>, children: seq<Child>, head: string) {
    && |entries| == |children|
    && forall i :: 0 <= i < |children| ==>
         && entries[i].name == children[i].name
         && entries[i].head == head
         && entries[i].kind == KindOf(children[i])
  }

  /** An entry for the first child in front of a listing of the others
      lists them all. */
  lemma ListsCons(entry: FileEntry, entries: seq<FileEntry>, children: seq<Child>, head: string)
    requires children != []
    requires entry.name == children[0].name && entry.head == head && entry.kind == KindOf(children[0])
    requires Lists(entries, children[1..], head)
    ensures Lists([entry] + entries, children, head)
  {
    var all := [entry] + entries;
    forall i | 1 <= i < |children|
      ensures all[i] == entries[i - 1] && children[i] == children[1..][i - 1]
    {
    }
  }

  /** The `log` that `ls` runs for one child of directory `dir`: the latest
      commit touching the child's path, as the adapter forms that path. */
  function ChildLog(dir: string, child: Child): Command {
    Command("log", LogArgs(ChildLogPathAsWritten(dir, child.name), Int(1)))
  }

  /** The trace `t` holds exactly one completed `ChildLog` per child, in
      order, and each entry's commit is the output of its child's `log`. */
  predicate LogsEach(t: seq<Exchange>, dir: string, children: seq<Child>, entries: seq<FileEntry>) {
    && |t| == |children| && |entries| == |children|
    && forall i :: 0 <= i < |children| ==>
         t[i] == Exchange(ChildLog(dir, children[i]), Completed(entries[i].commit))
  }

  /** The `log` for the first child in front of the logs of the others
      logs them all. */
  lemma LogsEachCons(x: Exchange, t: seq<Exchange>, dir: string, children: seq<Child>,
                     entry: FileEntry, entries: seq<FileEntry>)
    requires children != []
    requires x == Exchange(ChildLog(dir, children[0]), Completed(entry.commit))
    requires LogsEach(t, dir, children[1..], entries)
    ensures LogsEach([x] + t, dir, children, [entry] + entries)
  {
    var all, es := [x] + t, [entry] + entries;
    forall i | 1 <= i < |children|
      ensures all[i] == t[i - 1] && es[i] == entries[i - 1] && children[i] == children[1..][i - 1]
    {
    }
  }

  /** The entries of `children` of directory `dir`, each with the `log`
      (limited to one entry) of its path, the path formed as the adapter
      writes it. */
  function ListEntries(c: Client, ex: Executor, dir: string, children: seq<Child>): (s: Step<seq<FileEntry>>)
    ensures s.result.Success? ==> Lists(s.result.value, children, c.head)
    ensures s.result.Success? && children != [] ==> s.client.isFetched
    ensures Monotone(c, s.client) && FetchAccounting(c, s.client)
    decreases |children|
  {
    if children == [] then Step(c, Success([]))
    else
      var child := children[0];
      var l := Log(c, ex, ChildLogPathAsWritten(dir, child.name), Int(1));
      if l.result.Failure? then Step(l.client, Failure(l.result.error))
      else
        var rest := ListEntries(l.client, ex, dir, children[1..]);
        AccountingThenFetched(c, l.client, rest.client);
        if rest.result.Failure? then rest
        else
          var entry := FileEntry(child.name, c.head, KindOf(child), l.result.value);
          ListsCons(entry, rest.result.value, children, c.head);
          Step(rest.client, Success([entry] + rest.result.value))
  }

  /** What follows a prefix `a` in `b` starts with the element after `a`. */
  lemma SplitAfterPrefix<T>(a: seq<T>, x: T, b: seq<T>)
    requires a + [x] <= b
    ensures b[|a|..] == [x] + b[|a| + 1..]
  {
    assert b[|a|] == (a + [x])[|a|];
  }

  /** On a fetched client, listing issues exactly one `log -n 1` per child,
      in order, about the child's path as the adapter forms it, and each
      entry's commit is the output of that `log`. */
  lemma {:induction false} ListEntriesLogsEachChild(c: Client, ex: Executor, dir: string, children: seq<Child>)
    requires c.isFetched
    ensures var s := ListEntries(c, ex, dir, children);
      s.result.Success? ==>
        && |s.client.issued| == |c.issued| + |children|
        && LogsEach(s.client.issued[|c.issued|..], dir, children, s.result.value)
    decreases |children|
  {
    var s := ListEntries(c, ex, dir, children);
    if children == [] {
      assert s.client.issued[|c.issued|..] == [];
    } else {
      var child := children[0];
      var cmd := ChildLog(dir, child);
      var l := Log(c, ex, ChildLogPathAsWritten(dir, child.name), Int(1));
      assert l.client == Issue(c, ex, cmd);
      if l.result.Success? {
        var rest := ListEntries(l.client, ex, dir, children[1..]);
        ListEntriesLogsEachChild(l.client, ex, dir, children[1..]);
        if s.result.Success? {
          var entry := FileEntry(child.name, c.head, KindOf(child), l.result.value);
          assert s == Step(rest.client, Success([entry] + rest.result.value));
          var x := Exchange(cmd, Completed(l.result.value));
          assert l.client.issued == c.issued + [x];
          SplitAfterPrefix(c.issued, x, rest.client.issued);
          LogsEachCons(x, rest.client.issued[|l.client.issued|..], dir, children, entry, rest.result.value);
        }
      }
    }
  }

  /** `ls($path)`: checks out when needed; raises NotFound when the listed
      directory does not exist (`present`, from the file system); otherwise
      lists the directory's children in enumeration order (`children`, from
      the file system). */
  function Ls(c: Client, ex: Executor, path: string, present: bool, children: seq<Child>): (s: Step<seq<FileEntry>>)
    ensures !c.hasCheckout ==> Began(c, s.client, CheckoutCommand(c, None))
    ensures c.hasCheckout && !present ==> s == Step(c, Failure(NotFound(ListedDir(path))))
    ensures !present ==> s.result.Failure?
    ensures s.result.Success? ==> s.client.hasCheckout && Lists(s.result.value, children, c.head)
    ensures Monotone(c, s.client) && FetchAccounting(c, s.client)
  {
    var prepared := EnsureCheckout(c, ex);
    if prepared.result.Failure? then Step(prepared.client, Failure(prepared.result.error))
    else if !present then Step(prepared.client, Failure(NotFound(ListedDir(path))))
    else
      var r := ListEntries(prepared.client, ex, ListedDir(path), children);
      assert Monotone(c, r.client) by { MonotoneTransitive(c, prepared.client, r.client); }
      r
  }

  /** `cat($path)`: checks out when needed; the file's contents (`contents`,
      from the file system), or NotFound when it does not exist. */
  function Cat(c: Client, ex: Executor, path: string, contents: Option<string>): (s: Step<string>)
    ensures !c.hasCheckout ==> Began(c, s.client, CheckoutCommand(c, None))
    ensures c.hasCheckout ==> s.client == c
    ensures s.result.Success? ==> contents == Some(s.result.value) && s.client.hasCheckout
    ensures contents.None? ==> s.result.Failure?
    ensures Monotone(c, s.client) && NoFetch(c, s.client)
  {
    var prepared := EnsureCheckout(c, ex);
    if prepared.result.Failure? then Step(prepared.client, Failure(prepared.result.error))
    else if contents.None? then Step(prepared.client, Failure(NotFound(path)))
    else Step(prepared.client, Success(contents.value))
  }

  /** Stages everything and commits it with `message`, on an active
      checkout: one `add`, then one `commit` only if the `add` completed. */
  function StageAndCommit(c: Client, ex: Executor, message: string): (s: Step<()>)
    requires c.hasCheckout
    ensures var add := Command("add", AddArgs("*"));
      var r1 := Answer(c, ex, add);
      var d := Issue(c, ex, add);
      var commit := Command("commit", CommitArgs(message));
      && (r1.Failed? ==> s == Step(d, Failure(ProcessError(r1.diagnostics))))
      && (r1.Completed? ==>
            && s.client == Issue(d, ex, commit)
            && (s.result.Success? <==> Answer(d, ex, commit).Completed?))
    ensures s.result.Success? ==>
      && |s.client.issued| == |c.issued| + 2
      && s.client.issued[|s.client.issued| - 2].command == Command("add", AddArgs("*"))
      && s.client.issued[|s.client.issued| - 1].command == Command("commit", CommitArgs(message))
    ensures s.client.hasCheckout
    ensures Monotone(c, s.client) && NoFetch(c, s.client)
  {
    var added := Add(c, ex, "*");
    if added.result.Failure? then Step(added.client, Failure(added.result.error))
    else
      var committed := Commit(added.client, ex, message);
      Step(committed.client, Discard(committed.result))
  }

  /** `import($src, $path, $message)`: checks out when needed, then stages
      everything and commits it with `message` (copying `src` into the
      working copy happens on the file system in between). */
  function Import(c: Client, ex: Executor, message: string): (s: Step<()>)
    ensures c.hasCheckout ==> s == StageAndCommit(c, ex, message)
    ensures !c.hasCheckout ==> Began(c, s.client, CheckoutCommand(c, None))
    ensures s.result.Success? ==>
      && s.client.hasCheckout
      && |s.client.issued| >= |c.issued| + 2
      && s.client.issued[|s.client.issued| - 2].command == Command("add", AddArgs("*"))
      && s.client.issued[|s.client.issued| - 1].command == Command("commit", CommitArgs(message))
    ensures Monotone(c, s.client) && NoFetch(c, s.client)
  {
    var prepared := EnsureCheckout(c, ex);
    if prepared.result.Failure? then prepared
    else
      var r := StageAndCommit(prepared.client, ex, message);
      MonotoneTransitive(c, prepared.client, r.client);
      r
  }

  /** The commands of `export` on an active checkout: a shallow clone of
      the working branch from the local working copy into `dest`, then one
      `submodule update` only if the clone completed. */
  function CloneAndUpdate(c: Client, ex: Executor, dest: string): (s: Step<()>)
    ensures var clone := Command("clone", ExportCloneArgs(c.head, c.cwd, dest));
      var r1 := Answer(c, ex, clone);
      var d := Issue(c, ex, clone);
      var update := Command("submodule", SubmoduleArgs());
      && (r1.Failed? ==> s == Step(d, Failure(ProcessError(r1.diagnostics))))
      && (r1.Completed? ==>
            && s.client == Issue(d, ex, update)
            && (s.result.Success? <==> Answer(d, ex, update).Completed?))
    ensures s.result.Success? ==>
      && |s.client.issued| == |c.issued| + 2
      && s.client.issued[|s.client.issued| - 2].command == Command("clone", ExportCloneArgs(c.head, c.cwd, dest))
      && s.client.issued[|s.client.issued| - 1].command == Command("submodule", SubmoduleArgs())
    ensures s.client.hasCheckout == c.hasCheckout
    ensures Monotone(c, s.client) && NoFetch(c, s.client)
  {
    var cloned := Execute(c, ex, Command("clone", ExportCloneArgs(c.head, c.cwd, dest)));
    if cloned.result.Failure? then Step(cloned.client, Failure(cloned.result.error))
    else
      var updated := Execute(cloned.client, ex, Command("submodule", SubmoduleArgs()));
      Step(updated.client, Discard(updated.result))
  }

  /** `export($path, $dest)`: checks out when needed, then makes a shallow
      clone of the working branch from the local working copy into `dest` and
      initialises its submodules (removing `dest/.git` happens on the file
      system afterwards). */
  function Export(c: Client, ex: Executor, dest: string): (s: Step<()>)
    ensures c.hasCheckout ==> s == CloneAndUpdate(c, ex, dest)
    ensures !c.hasCheckout ==> Began(c, s.client, CheckoutCommand(c, None))
    ensures s.result.Success? ==>
      && s.client.hasCheckout
      && |s.client.issued| >= |c.issued| + 2
      && s.client.issued[|s.client.issued| - 2].command == Command("clone", ExportCloneArgs(c.head, c.cwd, dest))
      && s.client.issued[|s.client.issued| - 1].command == Command("submodule", SubmoduleArgs())
    ensures Monotone(c, s.client) && NoFetch(c, s.client)
  {
    var prepared := EnsureCheckout(c, ex);
    if prepared.result.Failure? then prepared
    else
      var r := CloneAndUpdate(prepared.client, ex, dest);
      MonotoneTransitive(c, prepared.client, r.client);
      r
  }
}

=== FILE: outcomes.dfy ===
/**
 * How the adapter signals absence and failure: PHP's `null` becomes
 * `None`, and a thrown exception becomes a `Failure` result.
 */
module Outcomes {

  /** An argument or field that PHP allows to be `null`. */
  datatype Option<T> = None | Some(value: T)

  /** `$o ?? $fallback`. */
  function OrElse<T>(o: Option<T>, fallback: T): T {
    if o.Some? then o.value else fallback
  }

  /** What a call returned, or the error it raised. */
  datatype Result<T, E> = Success(value: T) | Failure(error: E)

  /** A call made only for its effect: the returned value is dropped and a
      raised error passed on. */
  function Discard<T, E>(r: Result<T, E>): Result<(), E> {
    if r.Success? then Success(()) else Failure(r.error)
  }
}

=== FILE: php.dfy ===
/**
 * The PHP built-ins the Git adapter relies on, restated over `string`
 * (= `seq<char>`): `trim`/`rtrim`, `explode`/`implode`, `basename`,
 * truthiness, the string cast of integers and the loose `==` on strings.
 */
module Php {

  /** The characters PHP's `trim` and `rtrim` strip by default:
      space, tab, line feed, carriage return, NUL and vertical tab. */
  predicate IsSpace(c: char) {
    c == ' ' || c == '\t' || c == '\n' || c == '\r' || c == '\0' || c == '\U{000B}'
  }

  /** `rtrim($s)`: the longest prefix of `s` that does not end in white space. */
  function RTrim(s: string): (r: string)
    ensures r <= s
    ensures r == [] || !IsSpace(r[|r| - 1])
    ensures forall i :: |r| <= i < |s| ==> IsSpace(s[i])
    decreases |s|
  {
    if |s| > 0 && IsSpace(s[|s| - 1]) then RTrim(s[..|s| - 1]) else s
  }

  /** `ltrim($s)`: the longest suffix of `s` that does not start with white space. */
  function LTrim(s: string): (r: string)
    ensures |r| <= |s| && r == s[|s| - |r|..]
    ensures r == [] || !IsSpace(r[0])
    ensures forall i :: 0 <= i < |s| - |r| ==> IsSpace(s[i])
    decreases |s|
  {
    if |s| > 0 && IsSpace(s[0]) then LTrim(s[1..]) else s
  }

  /** `trim($s)`: white space stripped at both ends. It is empty exactly
      when `s` consists of white space only. */
  function Trim(s: string): (r: string)
    ensures r == [] <==> forall i :: 0 <= i < |s| ==> IsSpace(s[i])
  {
    var t := RTrim(s);
    var r := LTrim(t);
    assert r == [] ==> forall i :: 0 <= i < |t| ==> IsSpace(t[i]);
    assert (forall i :: 0 <= i < |s| ==> IsSpace(s[i])) ==> t == [];
    r
  }

  /** `'' === trim($s)`. */
  predicate IsBlank(s: string) {
    Trim(s) == []
  }

  /** Trimming a text that ends in a visible character and a line break
      removes only the line break. */
  lemma RTrimDropsFinalBreak(x: string)
    requires x != [] && !IsSpace(x[|x| - 1])
    ensures RTrim(x + "\n") == x
  {
    assert (x + "\n")[..|x|] == x;
  }

  /** Text that keeps something after right-trimming is not blank. */
  lemma RTrimmedNotBlank(s: string)
    requires RTrim(s) != []
    ensures !IsBlank(s)
  {
    var r := RTrim(s);
    assert s[|r| - 1] == r[|r| - 1];
  }

  /** The position of the first occurrence of `c` in `s`. */
  function IndexOf(s: string, c: char): (i: nat)
    requires c in s
    ensures i < |s| && s[i] == c
    ensures c !in s[..i]
  {
    if s[0] == c then 0
    else
      assert c in s[1..];
      1 + IndexOf(s[1..], c)
  }

  /** `implode($d, $parts)`: the parts glued together with `d` between them. */
  function Implode(d: char, parts: seq<string>): string
    requires |parts| >= 1
  {
    if |parts| == 1 then parts[0] else parts[0] + [d] + Implode(d, parts[1..])
  }

  /** `explode($d, $s)`: the maximal `d`-free pieces of `s`, in order;
      gluing them back with `d` gives `s` again. */
  function Explode(d: char, s: string): (parts: seq<string>)
    ensures |parts| >= 1
    ensures forall k :: 0 <= k < |parts| ==> d !in parts[k]
    ensures Implode(d, parts) == s
    ensures d in s ==> parts[0] == s[..IndexOf(s, d)]
    ensures d !in s ==> parts == [s]
    decreases |s|
  {
    if d !in s then [s]
    else
      var i := IndexOf(s, d);
      var rest := Explode(d, s[i + 1..]);
      var parts := [s[..i]] + rest;
      assert parts[1..] == rest;
      assert s == s[..i] + [d] + s[i + 1..];
      parts
  }

  /** Cutting at the first delimiter: the piece before it is the first part. */
  lemma {:induction false} ExplodeCons(d: char, a: string, b: string)
    requires d !in a
    ensures Explode(d, a + [d] + b) == [a] + Explode(d, b)
  {
    var s := a + [d] + b;
    assert s[|a|] == d;
    var i := IndexOf(s, d);
    assert i == |a|;
    assert s[..i] == a;
    assert s[i + 1..] == b;
  }

  /** `explode` undoes `implode` when no part contains the delimiter. */
  lemma {:induction false} ExplodeImplode(d: char, parts: seq<string>)
    requires |parts| >= 1
    requires forall k :: 0 <= k < |parts| ==> d !in parts[k]
    ensures Explode(d, Implode(d, parts)) == parts
  {
    if |parts| > 1 {
      ExplodeImplode(d, parts[1..]);
      ExplodeCons(d, parts[0], Implode(d, parts[1..]));
      assert [parts[0]] + parts[1..] == parts;
    }
  }

  /** The last element of a non-empty sequence. */
  function Last<T>(s: seq<T>): T
    requires |s| >= 1
  {
    s[|s| - 1]
  }

  /** Prepending an element keeps the last element of a non-empty sequence. */
  lemma LastOfCons<T>(x: T, xs: seq<T>)
    requires |xs| >= 1
    ensures Last([x] + xs) == Last(xs)
  {
  }

  /** The last piece of `explode` is what follows the last delimiter. */
  lemma {:induction false} ExplodeLast(d: char, a: string, b: string)
    requires d !in b
    ensures Last(Explode(d, a + [d] + b)) == b
    decreases |a|
  {
    if d !in a {
      ExplodeCons(d, a, b);
    } else {
      var i := IndexOf(a, d);
      var head, tail := a[..i], a[i + 1..];
      assert a == head + [d] + tail;
      assert a + [d] + b == head + [d] + (tail + [d] + b);
      ExplodeCons(d, head, tail + [d] + b);
      ExplodeLast(d, tail, b);
      LastOfCons(head, Explode(d, tail + [d] + b));
    }
  }

  /** `s` with every trailing `/` removed. */
  function StripTrailingSlashes(s: string): (r: string)
    ensures r <= s
    ensures r == [] || r[|r| - 1] != '/'
    ensures forall i :: |r| <= i < |s| ==> s[i] == '/'
    decreases |s|
  {
    if |s| > 0 && s[|s| - 1] == '/' then StripTrailingSlashes(s[..|s| - 1]) else s
  }

  /** `basename($path)` with `/` as the separator: the last path component,
      trailing slashes ignored. */
  function Basename(path: string): (r: string)
    ensures '/' !in r
  {
    Last(Explode('/', StripTrailingSlashes(path)))
  }

  /** The basename of a path without trailing slashes is its last `/`-piece. */
  lemma {:induction false} BasenameIsLastPiece(p: string)
    requires p != [] && p[|p| - 1] != '/'
    ensures Basename(p) == Last(Explode('/', p))
  {
    assert StripTrailingSlashes(p) == p;
  }

  /** The basename of `dir/name` is `name`, for a non-empty `name` free of slashes. */
  lemma {:induction false} BasenameOfChild(dir: string, name: string)
    requires name != [] && '/' !in name
    ensures Basename(dir + "/" + name) == name
  {
    var p := dir + "/" + name;
    assert p == dir + ['/'] + name;
    assert p[|p| - 1] == name[|name| - 1];
    BasenameIsLastPiece(p);
    ExplodeLast('/', dir, name);
  }

  /** A scalar PHP value as the adapter passes it around. */
  datatype Value = Null | Bool(b: bool) | Int(n: int) | Str(s: string)

  /** PHP truthiness: `null`, `false`, `0`, `''` and `'0'` are false. */
  predicate Truthy(v: Value) {
    match v
    case Null => false
    case Bool(b) => b
    case Int(n) => n != 0
    case Str(s) => s != "" && s != "0"
  }

  /** The decimal digit for `d`. */
  function DigitChar(d: nat): (c: char)
    requires d < 10
    ensures IsDigit(c) && c as int - '0' as int == d
  {
    (d + '0' as int) as char
  }

  predicate IsDigit(c: char) {
    '0' as int <= c as int <= '9' as int
  }

  /** A non-empty string of decimal digits. */
  predicate IsNumeral(s: string) {
    s != [] && forall i :: 0 <= i < |s| ==> IsDigit(s[i])
  }

  /** The decimal numeral of `n`, without leading zeros. */
  function Digits(n: nat): (r: string)
    ensures |r| >= 1
    ensures forall i :: 0 <= i < |r| ==> IsDigit(r[i])
    ensures |r| > 1 ==> r[0] != '0'
    decreases n
  {
    if n < 10 then [DigitChar(n)] else Digits(n / 10) + [DigitChar(n % 10)]
  }

  /** The number a string of decimal digits denotes. */
  function DigitsValue(s: string): nat
    requires forall i :: 0 <= i < |s| ==> IsDigit(s[i])
    decreases |s|
  {
    if s == [] then 0
    else
      assert IsDigit(s[|s| - 1]);
      10 * DigitsValue(s[..|s| - 1]) + (s[|s| - 1] as int - '0' as int)
  }

  /** Reading back a numeral gives the number it was made from. */
  lemma {:induction false} DigitsRoundTrip(n: nat)
    ensures DigitsValue(Digits(n)) == n
    decreases n
  {
    var r := Digits(n);
    if n >= 10 {
      DigitsRoundTrip(n / 10);
      assert r[..|r| - 1] == Digits(n / 10);
    }
  }

  /** `(string) $n` for an integer. */
  function IntToString(n: int): (r: string)
    ensures n >= 0 ==> IsNumeral(r) && DigitsValue(r) == n
    ensures n < 0 ==> |r| >= 2 && r[0] == '-' && IsNumeral(r[1..]) && DigitsValue(r[1..]) == -n
  {
    if n < 0 then
      var d := Digits(-n);
      DigitsRoundTrip(-n);
      assert ("-" + d)[1..] == d;
      "-" + d
    else
      DigitsRoundTrip(n);
      Digits(n)
  }

  /** `(string) $v`: `true` is `'1'`, `false` and `null` are `''`. */
  function ToText(v: Value): string {
    match v
    case Null => ""
    case Bool(b) => if b then "1" else ""
    case Int(n) => IntToString(n)
    case Str(s) => s
  }

  /** The largest value of PHP's 64-bit integer, `PHP_INT_MAX`. */
  const PhpIntMax: nat := 0x7FFF_FFFF_FFFF_FFFF

  /** PHP's loose `$a == $b` on two strings, restricted to the decimal case.
      Two numerals whose values fit a PHP integer are compared as numbers.
      When either value is above `PHP_INT_MAX`, PHP compares them as
      floating-point numbers and, when both overflow to the same float,
      as text again; for decimal numerals that comes to comparing the text.
      Anything else is compared as text. */
  function LooseEquals(a: string, b: string): (r: bool)
    ensures a == b ==> r
    ensures r && a != b ==>
      && IsNumeral(a) && IsNumeral(b)
      && DigitsValue(a) == DigitsValue(b) && DigitsValue(a) <= PhpIntMax
    ensures IsNumeral(a) && IsNumeral(b) && DigitsValue(a) == DigitsValue(b) && DigitsValue(a) <= PhpIntMax ==> r
  {
    if IsNumeral(a) && IsNumeral(b) && DigitsValue(a) <= PhpIntMax && DigitsValue(b) <= PhpIntMax
    then DigitsValue(a) == DigitsValue(b)
    else a == b
  }

  /** Loose equality identifies distinct all-digit strings such as `01234` and `1234`. */
  lemma LooseEqualsConflatesNumerals()
    ensures LooseEquals("01234", "1234") && "01234" != "1234"
  {
    assert "01234"[..4] == "0123" && "0123"[..3] == "012" && "012"[..2] == "01" && "01"[..1] == "0";
    assert "1234"[..3] == "123" && "123"[..2] == "12" && "12"[..1] == "1";
  }
}

=== FILE: refs.dfy ===
/**
 * Remote references and the `git ls-remote` listing they are read from:
 * one `HASH<TAB>FULL_REF_PATH` line per reference, newline-terminated.
 */
module Refs {
  import opened Php

  /** The three kinds of reference a Git repository exposes. */
  datatype RefKind = Branch | Tag | Head

  /** A name for a commit; the fields in the order the adapter's
      `Reference` constructor takes them. */
  datatype Reference = Reference(name: string, kind: RefKind, hash: string)

  /** One listing line: the hash is the text before the first tab and the
      name the basename of the second tab-separated field. A line without a
      tab leaves that field unset, whose basename is the empty string. */
  function ParseLine(line: string, kind: RefKind): (r: Reference)
    ensures r.kind == kind
    ensures '\t' !in r.hash && '/' !in r.name
    ensures '\t' in line ==> r.hash == line[..IndexOf(line, '\t')]
    ensures '\t' !in line ==> r == Reference("", kind, line)
  {
    var fields := Explode('\t', line);
    var name := if |fields| >= 2 then Basename(fields[1]) else "";
    Reference(name, kind, fields[0])
  }

  /** The references of an `ls-remote` listing, one per line and in line
      order, after trailing white space is trimmed; blank output lists none. */
  function ParseListing(output: string, kind: RefKind): (refs: seq<Reference>)
    ensures refs == [] <==> IsBlank(output)
    ensures forall i :: 0 <= i < |refs| ==> refs[i].kind == kind
    ensures !IsBlank(output) ==>
      var lines := Explode('\n', RTrim(output));
      |refs| == |lines| && forall i :: 0 <= i < |refs| ==> refs[i] == ParseLine(lines[i], kind)
  {
    if IsBlank(output) then []
    else
      var lines := Explode('\n', RTrim(output));
      seq(|lines|, i requires 0 <= i < |lines| => ParseLine(lines[i], kind))
  }

  /** The full reference path `ls-remote` prints for a reference of each kind. */
  function RefPath(kind: RefKind, name: string): string {
    match kind
    case Branch => "refs/heads/" + name
    case Tag => "refs/tags/" + name
    case Head => name
  }

  /** The listing line Git prints for a reference. */
  function RenderLine(r: Reference): string {
    r.hash + "\t" + RefPath(r.kind, r.name)
  }

  /** The listing Git prints for a sequence of references. */
  function RenderListing(refs: seq<Reference>): string {
    if refs == [] then "" else Implode('\n', RenderLines(refs)) + "\n"
  }

  function RenderLines(refs: seq<Reference>): (lines: seq<string>)
    ensures |lines| == |refs|
  {
    seq(|refs|, i requires 0 <= i < |refs| => RenderLine(refs[i]))
  }

  /** A reference Git can print and read back: a hash without tab or line
      break and a non-empty short name without slash or white space. */
  predicate WellFormed(r: Reference) {
    && '\t' !in r.hash && '\n' !in r.hash
    && r.name != [] && '/' !in r.name
    && forall i :: 0 <= i < |r.name| ==> !IsSpace(r.name[i])
  }

  /** A character in neither part is not in their concatenation. */
  lemma NotInConcat(c: char, a: string, b: string)
    requires c !in a && c !in b
    ensures c !in a + b
  {
    forall i | 0 <= i < |a + b|
      ensures (a + b)[i] != c
    {
      if i < |a| { assert (a + b)[i] == a[i]; } else { assert (a + b)[i] == b[i - |a|]; }
    }
  }

  /** The short name is the basename of the full reference path. */
  lemma {:induction false} RefPathBasename(kind: RefKind, name: string)
    requires name != [] && '/' !in name
    ensures Basename(RefPath(kind, name)) == name
  {
    match kind
    case Branch =>
      assert RefPath(kind, name) == "refs/heads" + "/" + name;
      BasenameOfChild("refs/heads", name);
    case Tag =>
      assert RefPath(kind, name) == "refs/tags" + "/" + name;
      BasenameOfChild("refs/tags", name);
    case Head =>
      BasenameIsLastPiece(name);
  }

  /** The full reference path has no tab when the name has none. */
  lemma RefPathNoTab(kind: RefKind, name: string)
    requires '\t' !in name
    ensures '\t' !in RefPath(kind, name)
  {
    match kind
    case Branch => NotInConcat('\t', "refs/heads/", name);
    case Tag => NotInConcat('\t', "refs/tags/", name);
    case Head =>
  }

  /** The name read from a line is only the last `/`-segment of the
      reference path: `HASH<TAB>dir/x` gives the name `x`, whatever the
      directories in front of it (so the branch `feature/x` reads as `x`). */
  lemma {:induction false} ParseLineKeepsLastSegment(hash: string, dir: string, x: string, kind: RefKind)
    requires '\t' !in hash && '\t' !in dir && '\t' !in x
    requires x != [] && '/' !in x
    ensures ParseLine(hash + "\t" + (dir + "/" + x), kind) == Reference(x, kind, hash)
  {
    var path := dir + "/" + x;
    NotInConcat('\t', dir, "/");
    NotInConcat('\t', dir + "/", x);
    BasenameOfChild(dir, x);
    ExplodeCons('\t', hash, path);
    var fields := Explode('\t', hash + "\t" + path);
    assert fields == [hash, path];
  }

  /** Reading a printed line gives back the reference it was printed from. */
  lemma {:induction false} ParseRenderLine(r: Reference)
    requires WellFormed(r)
    ensures ParseLine(RenderLine(r), r.kind) == r
  {
    var p := RefPath(r.kind, r.name);
    assert !IsSpace(r.name[0]);
    assert '\t' !in r.name;
    RefPathBasename(r.kind, r.name);
    RefPathNoTab(r.kind, r.name);
    ExplodeCons('\t', r.hash, p);
    assert RenderLine(r) == r.hash + ['\t'] + p;
    var fields := Explode('\t', RenderLine(r));
    assert fields == [r.hash, p];
  }

  /** The lines of a rendered listing carry no line break of their own. */
  lemma RenderLineSingle(r: Reference)
    requires WellFormed(r)
    ensures '\n' !in RenderLine(r)
    ensures var l := RenderLine(r); l != [] && l[|l| - 1] == r.name[|r.name| - 1]
  {
  }

  /** A non-empty rendered listing is not blank, and trimming it strips
      exactly the final line break. */
  lemma RenderedListingTrim(refs: seq<Reference>)
    requires refs != []
    requires forall i :: 0 <= i < |refs| ==> WellFormed(refs[i])
    ensures var output := RenderListing(refs);
      !IsBlank(output) && RTrim(output) == Implode('\n', RenderLines(refs))
  {
    var lines := RenderLines(refs);
    var x := Implode('\n', lines);
    var last := refs[|refs| - 1];
    RenderLineSingle(last);
    assert lines[|lines| - 1] == RenderLine(last);
    ImplodeEndsWithLast('\n', lines);
    assert !IsSpace(last.name[|last.name| - 1]);
    assert x != [] && !IsSpace(x[|x| - 1]);
    RTrimDropsFinalBreak(x);
    RTrimmedNotBlank(x + "\n");
  }

  /** Parsing the listing Git prints for well-formed references of one kind
      gives back exactly those references, in order. */
  lemma {:induction false} ListingRoundTrip(refs: seq<Reference>, kind: RefKind)
    requires forall i :: 0 <= i < |refs| ==> WellFormed(refs[i]) && refs[i].kind == kind
    ensures ParseListing(RenderListing(refs), kind) == refs
  {
    if refs == [] {
      assert IsBlank(RenderListing(refs));
    } else {
      var lines := RenderLines(refs);
      forall k | 0 <= k < |lines|
        ensures '\n' !in lines[k]
      {
        RenderLineSingle(refs[k]);
      }
      RenderedListingTrim(refs);
      ExplodeImplode('\n', lines);
      var parsed := ParseListing(RenderListing(refs), kind);
      forall i | 0 <= i < |refs|
        ensures parsed[i] == refs[i]
      {
        ParseRenderLine(refs[i]);
      }
    }
  }

  /** A glued sequence ends with the last character of its last (non-empty) part. */
  lemma {:induction false} ImplodeEndsWithLast(d: char, parts: seq<string>)
    requires |parts| >= 1 && parts[|parts| - 1] != []
    ensures var s := Implode(d, parts); var l := parts[|parts| - 1];
      s != [] && s[|s| - 1] == l[|l| - 1]
  {
    if |parts| > 1 {
      ImplodeEndsWithLast(d, parts[1..]);
    }
  }
}

=== FILE: sessions.dfy ===
/**
 * Sequences of calls on one client, and what holds across them: at most
 * one `fetch` ever completes, filled reference caches stay in force, and
 * the first commands a fresh client issues are the ones the adapter's
 * unit tests expect.
 */
module Sessions {
  import opened Outcomes
  import opened Php
  import opened Refs
  import opened Args
  import opened Git

  /** One public call on the client, with its arguments (and, for the
      calls that read the file system, what the file system reports). */
  datatype Call =
    | CloneCall(cloneDest: Option<string>)
    | CheckoutCall(checkoutDest: Option<string>)
    | AddCall(addPath: string)
    | CommitCall(message: string)
    | StatusCall(statusPath: Option<string>)
    | ImportCall(importMessage: string)
    | ExportCall(exportDest: string)
    | LsCall(lsPath: string, present: bool, children: seq<Child>)
    | LogCall(logPath: string, limit: Value)
    | ChangelogCall(from: string, to: string)
    | CatCall(catPath: string, contents: Option<string>)
    | DiffCall(oldPath: Option<string>, newPath: Option<string>,
               oldRevision: Option<string>, newRevision: Option<string>, summary: bool)
    | BranchesCall
    | TagsCall
    | PushCall(pushRemote: string)
    | PullCall(pullRemote: string)
    | FetchCall(fetchRemote: Option<string>)
    | CompareCall(revision1: string, revision2: string)

  /** The client after one call, whatever the call returned or raised. */
  function Apply(c: Client, ex: Executor, call: Call): (d: Client)
    ensures Monotone(c, d) && FetchAccounting(c, d)
  {
    match call
    case CloneCall(dest) => CloneRepository(c, ex, dest).client
    case CheckoutCall(dest) => Checkout(c, ex, dest).client
    case AddCall(path) => Add(c, ex, path).client
    case CommitCall(message) => Commit(c, ex, message).client
    case StatusCall(path) => Status(c, ex, path).client
    case ImportCall(message) => Import(c, ex, message).client
    case ExportCall(dest) => Export(c, ex, dest).client
    case LsCall(path, present, children) => Ls(c, ex, path, present, children).client
    case LogCall(path, limit) => Log(c, ex, path, limit).client
    case ChangelogCall(r1, r2) => Changelog(c, ex, r1, r2).client
    case CatCall(path, contents) => Cat(c, ex, path, contents).client
    case DiffCall(op, np, orev, nrev, summary) => Diff(c, ex, op, np, orev, nrev, summary).client
    case BranchesCall => Branches(c, ex).client
    case TagsCall => Tags(c, ex).client
    case PushCall(remote) => Push(c, ex, remote).client
    case PullCall(remote) => Pull(c, ex, remote).client
    case FetchCall(remote) => Fetch(c, ex, remote).client
    case CompareCall(r1, r2) => RevisionCompareAsWritten(c, ex, r1, r2).client
  }

  /** The client after a sequence of calls, made one after the other. Over
      the whole run the state only moves forward, at most one `fetch`
      completes (none once the client is fetched) and a completed `fetch`
      leaves the client fetched. */
  function Run(c: Client, ex: Executor, calls: seq<Call>): (d: Client)
    ensures Monotone(c, d)
    ensures c.isFetched ==> NoFetch(c, d)
    ensures FetchesCompleted(d.issued) <= FetchesCompleted(c.issued) + (if c.isFetched then 0 else 1)
    ensures FetchesCompleted(d.issued) > FetchesCompleted(c.issued) ==> d.isFetched
    decreases |calls|
  {
    if calls == [] then c
    else
      var next := Apply(c, ex, calls[0]);
      var d := Run(next, ex, calls[1..]);
      MonotoneTransitive(c, next, d);
      d
  }

  /** A client used from creation on: however the executor answers and
      whatever is called, the repository is fetched at most once. */
  function Session(url: string, cwd: string, head: string, ex: Executor, calls: seq<Call>): (d: Client)
    ensures FetchesCompleted(d.issued) <= 1
    ensures d.url == url && d.head == head
    ensures FetchesCompleted(d.issued) == 1 ==> d.isFetched
  {
    Run(NewClient(url, cwd, head), ex, calls)
  }

  /** Running two sequences of calls one after the other is running their
      concatenation. */
  lemma {:induction false} RunAppend(c: Client, ex: Executor, a: seq<Call>, b: seq<Call>)
    ensures Run(c, ex, a + b) == Run(Run(c, ex, a), ex, b)
    decreases |a|
  {
    if a == [] {
      assert a + b == b;
    } else {
      assert (a + b)[0] == a[0];
      assert (a + b)[1..] == a[1..] + b;
      RunAppend(Apply(c, ex, a[0]), ex, a[1..], b);
    }
  }

  /** Split a session anywhere: once the first part has completed a
      `fetch`, the second part completes none. */
  lemma FetchedPrefixQuiet(c: Client, ex: Executor, a: seq<Call>, b: seq<Call>)
    ensures var m := Run(c, ex, a);
      FetchesCompleted(m.issued) > FetchesCompleted(c.issued) ==>
        FetchesCompleted(Run(c, ex, a + b).issued) == FetchesCompleted(m.issued)
  {
    RunAppend(c, ex, a, b);
  }

  // ----- Fetch -----

  /** Once a fetch has succeeded, fetching again returns false and issues
      nothing. */
  lemma FetchTwice(c: Client, ex: Executor, remote: Option<string>, again: Option<string>)
    ensures var f := Fetch(c, ex, remote);
      f.result.Success? ==> Fetch(f.client, ex, again) == Step(f.client, Success(false))
  {
  }

  /** A clone counts as a fetch: after a completed clone, and any calls
      after it, `fetch` returns false and issues nothing. */
  lemma CloneThenFetch(c: Client, ex: Executor, dest: Option<string>, calls: seq<Call>, remote: Option<string>)
    ensures var s := CloneRepository(c, ex, dest);
      s.result.Success? ==>
        var d := Run(s.client, ex, calls);
        Fetch(d, ex, remote) == Step(d, Success(false))
  {
  }

  /** A fetch that fails does not mark the client fetched: the next fetch
      runs `fetch` again. */
  lemma FetchRetriedAfterFailure(c: Client, ex: Executor, remote: Option<string>)
    requires c.hasClone && !c.isFetched
    ensures var f := Fetch(c, ex, remote);
      var cmd := Command("fetch", FetchArgs(remote));
      f.result.Failure? ==>
        && !f.client.isFetched
        && Fetch(f.client, ex, remote).client.issued
           == f.client.issued + [Exchange(cmd, Answer(f.client, ex, cmd))]
  {
  }

  /** On a fetched client `log` issues its own command and nothing else,
      whatever was called before. */
  lemma LogAfterFetch(c: Client, ex: Executor, remote: Option<string>, calls: seq<Call>, path: string, limit: Value)
    ensures var f := Fetch(c, ex, remote);
      f.result.Success? ==>
        var d := Run(f.client, ex, calls);
        var cmd := Command("log", LogArgs(path, limit));
        Log(d, ex, path, limit).client.issued == d.issued + [Exchange(cmd, Answer(d, ex, cmd))]
  {
  }

  // ----- Guards -----

  /** On a fresh client every operation that needs a checkout raises and
      issues nothing. */
  lemma FreshClientGuards(url: string, cwd: string, head: string, ex: Executor,
                          path: string, message: string, statusPath: Option<string>, remote: string)
    ensures var c := NewClient(url, cwd, head);
      && Add(c, ex, path) == Step(c, Failure(PreconditionError))
      && Commit(c, ex, message) == Step(c, Failure(PreconditionError))
      && Status(c, ex, statusPath) == Step(c, Failure(PreconditionError))
      && Push(c, ex, remote) == Step(c, Failure(PreconditionError))
      && Pull(c, ex, remote) == Step(c, Failure(PreconditionError))
  {
  }

  // ----- Reference caches -----

  /** After a successful `branches()`, any later `branches()` on the same
      client returns the identical sequence and issues nothing. */
  lemma BranchesCached(c: Client, ex: Executor, calls: seq<Call>)
    ensures var s := Branches(c, ex);
      s.result.Success? ==>
        var d := Run(s.client, ex, calls);
        Branches(d, ex) == Step(d, Success(s.result.value))
  {
  }

  /** A failed `branches()` caches nothing: the next call lists again. */
  lemma BranchesRetriedAfterFailure(c: Client, ex: Executor)
    requires c.branches.None?
    ensures var s := Branches(c, ex);
      var cmd := Command("ls-remote", LsRemoteArgs("--heads", c.url));
      s.result.Failure? ==>
        && s.client.branches.None?
        && Branches(s.client, ex).client.issued
           == s.client.issued + [Exchange(cmd, Answer(s.client, ex, cmd))]
  {
  }

  /** A failed `tags()` caches nothing: the next call lists again. */
  lemma TagsRetriedAfterFailure(c: Client, ex: Executor)
    requires c.tags.None?
    ensures var s := Tags(c, ex);
      var cmd := Command("ls-remote", LsRemoteArgs("--tags", c.url));
      s.result.Failure? ==>
        && s.client.tags.None?
        && Tags(s.client, ex).client.issued
           == s.client.issued + [Exchange(cmd, Answer(s.client, ex, cmd))]
  {
  }

  /** After a successful `tags()`, any later `tags()` on the same client
      returns the identical sequence and issues nothing. */
  lemma TagsCached(c: Client, ex: Executor, calls: seq<Call>)
    ensures var s := Tags(c, ex);
      s.result.Success? ==>
        var d := Run(s.client, ex, calls);
        Tags(d, ex) == Step(d, Success(s.result.value))
  {
  }

  /** The first `branches()` of a fresh client reads back the branches the
      remote lists, in order. */
  lemma BranchesListed(url: string, cwd: string, head: string, ex: Executor, refs: seq<Reference>)
    requires forall i :: 0 <= i < |refs| ==> WellFormed(refs[i]) && refs[i].kind == Branch
    requires ex(0, Command("ls-remote", LsRemoteArgs("--heads", url))) == Completed(RenderListing(refs))
    ensures Branches(NewClient(url, cwd, head), ex).result == Success(refs)
  {
    ListingRoundTrip(refs, Branch);
  }

  // ----- Revision comparison -----

  /** A revision compared with itself gives 0 and runs no `log`: the
      client ends as the fetch alone leaves it. */
  lemma CompareSame(c: Client, ex: Executor, revision: string)
    ensures var s := RevisionCompareAsWritten(c, ex, revision, revision);
      && s.client == Fetch(c, ex, None).client
      && (s.result.Success? ==> s.result.value == 0)
  {
  }

  // ----- What a fresh client issues first -----

  /** Checking out a fresh client into a destination clones the working
      branch into it (the command line `clone -b master <url> <dest>`),
      then pulls from `origin`; the destination becomes the working
      directory and the client counts as fetched. */
  lemma CheckoutFresh(url: string, cwd: string, dest: string, ex: Executor)
    ensures var c := NewClient(url, cwd, "master");
      var s := Checkout(c, ex, Some(dest));
      var clone := Command("clone", CloneArgs("master", url, dest));
      && |s.client.issued| >= 1
      && s.client.issued[0].command == clone
      && Render(clone.args) == ["-b", "master", url, dest]
      && (ex(0, clone).Completed? ==>
            && |s.client.issued| == 2
            && s.client.issued[1].command == Command("pull", PullArgs("origin"))
            && s.client.hasCheckout && s.client.isFetched && s.client.cwd == dest)
  {
    CloneCommandLine(url, dest);
  }

  /** Listing a directory on a fresh client clones into the working
      directory first; a successful listing has one entry per child, on the
      working branch, a file for every child that is not a directory. */
  lemma LsFresh(url: string, cwd: string, ex: Executor)
    ensures var c := NewClient(url, cwd, "master");
      var s := Ls(c, ex, "/dir1", true, [Child("sample1.php", false)]);
      && |s.client.issued| >= 1
      && s.client.issued[0].command == Command("clone", CloneArgs("master", url, cwd))
      && (s.result.Success? ==>
            && |s.result.value| == 1
            && s.result.value[0].name == "sample1.php"
            && s.result.value[0].head == "master"
            && s.result.value[0].kind == File)
  {
  }

  /** Listing the directory `0` on a checked-out, fetched client asks `log`
      about the bare child name, as the adapter's path expression does. */
  lemma LsZeroDir(c: Client, ex: Executor)
    requires c.hasCheckout && c.isFetched
    ensures var s := Ls(c, ex, "0", true, [Child("a.txt", false)]);
      && |s.client.issued| == |c.issued| + 1
      && s.client.issued[|c.issued|].command == Command("log", LogArgs("a.txt", Int(1)))
  {
    ChildLogPathAsWrittenDropsZero();
  }

  /** Listing `/` on a checked-out, fetched client lists the top of the
      working copy: `log` is asked about the bare child name. */
  lemma LsRoot(c: Client, ex: Executor)
    requires c.hasCheckout && c.isFetched
    ensures var s := Ls(c, ex, "/", true, [Child("a.txt", false)]);
      && |s.client.issued| == |c.issued| + 1
      && s.client.issued[|c.issued|].command == Command("log", LogArgs("a.txt", Int(1)))
  {
    assert ListedDir("/") == "";
    assert ChildLogPathAsWritten("", "a.txt") == "a.txt";
  }

  /** Importing on a fresh client checks out first and ends, on success,
      with one `add *` and then one `commit -m <message>`. */
  lemma ImportFresh(url: string, cwd: string, head: string, ex: Executor, message: string)
    ensures var c := NewClient(url, cwd, head);
      var s := Import(c, ex, message);
      && |s.client.issued| >= 1
      && s.client.issued[0].command == Command("clone", CloneArgs(head, url, cwd))
      && (s.result.Success? ==>
            && |s.client.issued| >= 2
            && s.client.issued[|s.client.issued| - 2].command == Command("add", AddArgs("*"))
            && s.client.issued[|s.client.issued| - 1].command == Command("commit", CommitArgs(message)))
  {
  }
}
